=== FILE: README.md ===
# Flexible bottom sheet: detent logic in Dafny

This project models the detent logic of the FlexibleBottomSheet library, a
bottom sheet for Compose with four rest positions. The positions are Hidden,
SlightlyExpanded, IntermediatelyExpanded and FullyExpanded. The model covers
four parts:

- **Anchor calculation and map** (`Swipeable`, from `FlexibleSwipeable.kt`). This is
  the per-detent pixel offset, modal and non-modal. The anchor map keeps the
  detents whose offset is not null.
- **Anchor-change handler** (`Swipeable.OnAnchorsChanged`). It picks a
  fallback target and decides between doing nothing, re-aiming the animation
  and snapping.
- **Sheet-state wrapper** (`SheetState`, `NestedScroll`, from
  `FlexibleSheetState.kt`). This covers:
  - the constructor checks and the queries;
  - the skip-flag `check`s of the detent commands and the target choice of `show`;
  - the saver;
  - the nested-scroll connection and the orientation projections.
- **Material composable rules** (`BottomSheet`, from the material
  `FlexibleBottomSheet.kt`). This covers:
  - dismissal, the handler's snap fallback and `isInitialized`;
  - the back/outside dismiss step-down;
  - alpha, offset and height;
  - the accessibility actions and the first `show`.

Modelling choices:

- **Pixel values.** Pixel heights and offsets are `real`. The measured content
  height is a `nat`.
- **Rounded sizes.** The non-modal rounded sizes are non-negative integer inputs (fractions in [0, 1]) in
  `Swipeable.Layout`. They stand for `(screenMaxHeight * fraction).roundToInt()`.
- **Screen shares.** The modal sheet compares against, and subtracts, the
  Float products `screenMaxHeight * fraction`. These three shares are also
  inputs in `Swipeable.Layout`. `Swipeable.ExactShares` says when they are
  the exact real products; the modal ordering lemma assumes it.
- **The underlying swipeable state.** It is the plain record
  `SheetState.SwipeableState`. Its `dispatchRawDelta` is a function parameter
  `real -> real`. So is the owner's `confirmValueChange`.
- **Suspending calls.** They become traces:
  - the detent commands return the `animateTo` calls they make
    (`SheetState.SwipeCall`). A non-modal command keeps its doubled call as
    two entries;
  - the composable returns the coroutines it launches and the callbacks it
    fires (`BottomSheet.UiEvent`);
  - what an `invokeOnCompletion` handler sees, the sheet's visibility when
    the job ends, is a boolean parameter.
- **Thrown exceptions.** They are `Failure` results:
  - a failing `require` in the constructor;
  - a failing `check` in a command;
  - `requireOffset` before layout;
  - `getValue` on a missing anchor in the handler.
- **Queries.** `IsVisible` and the `Has…State` predicates are defined directly as
  "current value is not Hidden" and "the value is a key of the anchor map"
  (FlexibleSheetState.kt:100-140). `BottomSheet.ExpectedSheetSize` is the
  per-target `when` of FlexibleBottomSheet.kt:179-188; `BottomSheet.RestingSheetHeight`
  states its value for each target.

Behaviour of the code that the model keeps as written:

- **Non-modal FullyExpanded anchor.** It is `max(0, sheetFullHeight - measuredHeight)`,
  with no cap of the measured height at the screen fraction.
- **skipHiddenState.** It does not remove Hidden from the anchors. Hidden is
  always anchored. Within the sheet state, the flag only guards the constructor and `hide`.
- **Saver.** It does not take `skipHiddenState`, so a restored state has it
  `false` (`SheetState.SaverRoundTrip`).
- **Non-modal commands.** `fullyExpand`, `intermediatelyExpand`, `slightlyExpand`
  and `show` really call `animateTo` twice when the sheet is not modal.
- **Pre-scroll fling row.** The code's extra row for a downward fling of a
  fully expanded sheet adds nothing to the two-row decision. It falls into
  the "take nothing" case anyway (`NestedScroll.PreScrollFlingBranchRedundant`).

The ordering lemmas need hypotheses the code does not enforce. They only
hold under them:

- **Modal** (`Swipeable.ModalAnchorsOrdered`): exact shares of fractions in
  [0, 1] that shrink from Fully to Slightly, and a container at least as tall
  as the screen. `Swipeable.ShortContainerBreaksOrder` shows that the
  container hypothesis is needed.
- **Non-modal** (`Swipeable.NonModalAnchorsOrdered`): rounded sizes that grow
  from Slightly to Intermediately expanded and fit in the full height.

## Model

Paths are relative to the repository root. `FlexibleSwipeable.kt`,
`FlexibleSheetState.kt` and `FlexibleSheetSize.kt` live in
`flexible-core/src/androidMain/kotlin/com/skydoves/flexible/core/`. The
material `FlexibleBottomSheet.kt` lives in
`flexible-bottomsheet-material/src/commonMain/kotlin/com/skydoves/flexible/bottomsheet/material/`.

| member | source | states |
|---|---|---|
| SheetSizes.DefaultSheetSizeWellFormed | flexible-core/src/androidMain/kotlin/com/skydoves/flexible/core/FlexibleSheetSize.kt:30-34 | the default fractions 1.0, 0.5, 0.25 lie in [0, 1], shrink from Fully to Slightly, and grow with expansion rank |
| Swipeable.CalculateAnchor | flexible-core/src/androidMain/kotlin/com/skydoves/flexible/core/FlexibleSwipeable.kt:54-118 | the anchor lambda: Hidden always gets an anchor; FullyExpanded gets one iff the measured height is non-zero, and it is never negative; a skipped detent never gets one |
| Swipeable.PartialDetentAnchor | flexible-core/src/androidMain/kotlin/com/skydoves/flexible/core/FlexibleSwipeable.kt:66-76 | the partial-detent `when` chain: an anchor exists iff the height reaches the threshold and the detent is not skipped, and it lies exactly the threshold above the base height |
| Swipeable.BuildAnchors | flexible-core/src/androidMain/kotlin/com/skydoves/flexible/core/FlexibleSwipeable.kt:45-118 | the anchor map holds exactly the detents whose calculated anchor is not null, at that offset; Hidden is always a key |
| Swipeable.HiddenAlwaysAnchored | flexible-core/src/androidMain/kotlin/com/skydoves/flexible/core/FlexibleSwipeable.kt:56-91 | Hidden always has an anchor: the constraint height when modal, the full sheet height when non-modal |
| Swipeable.FullyExpandedAnchor | flexible-core/src/androidMain/kotlin/com/skydoves/flexible/core/FlexibleSwipeable.kt:60-97 | FullyExpanded is anchored iff the measured height is non-zero. Its anchor is max(0, full height − measured height) when non-modal and max(0, screen height − fully expanded share) when modal, so it is never negative and tall content is not capped |
| Swipeable.ModalDetentOffset | flexible-core/src/androidMain/kotlin/com/skydoves/flexible/core/FlexibleSwipeable.kt:64-75 | modal: a present partial anchor is the screen height minus the detent's screen share, whatever the content height |
| Swipeable.DetentPresence | flexible-core/src/androidMain/kotlin/com/skydoves/flexible/core/FlexibleSwipeable.kt:66-113 | a partial detent is anchored iff its skip flag is clear and the content reaches its threshold (its screen share when modal, the rounded share when non-modal); so a skip flag removes it whatever the content, and shorter content never stops there |
| Swipeable.NonModalDetentOffset | flexible-core/src/androidMain/kotlin/com/skydoves/flexible/core/FlexibleSwipeable.kt:79-113 | non-modal: a present partial anchor equals full height minus its rounded size, is at most the Hidden anchor, and is at least the FullyExpanded anchor when the rounded size fits in the full height |
| Swipeable.ExactSharesOrdered | flexible-core/src/androidMain/kotlin/com/skydoves/flexible/core/FlexibleSwipeable.kt:60-75 | exact screen shares of in-range fractions that shrink from Fully to Slightly are ordered the same way, and the intermediate share fits on the screen |
| Swipeable.ModalAnchorsOrderedByShares | flexible-core/src/androidMain/kotlin/com/skydoves/flexible/core/FlexibleSwipeable.kt:56-77 | modal, with ordered screen shares and a container at least screen-tall: present anchors follow expansion order |
| Swipeable.ModalAnchorsOrdered | flexible-core/src/androidMain/kotlin/com/skydoves/flexible/core/FlexibleSwipeable.kt:56-77 | modal, with exact shares of in-range decreasing fractions and a container at least screen-tall: present anchors follow expansion order |
| Swipeable.DefaultModalAnchorsOrdered | flexible-core/src/androidMain/kotlin/com/skydoves/flexible/core/FlexibleSheetSize.kt:30-34 | with the default fractions and exact shares, a modal sheet in a container at least screen-tall is always ordered |
| Swipeable.ShortContainerBreaksOrder | flexible-core/src/androidMain/kotlin/com/skydoves/flexible/core/FlexibleSwipeable.kt:56-76 | a concrete modal layout (2000 px screen, 1800 px container, slight fraction 0.05) anchors SlightlyExpanded at 1900 below Hidden at 1800, so the order fails without the container hypothesis |
| Swipeable.NonModalAnchorsOrdered | flexible-core/src/androidMain/kotlin/com/skydoves/flexible/core/FlexibleSwipeable.kt:78-117 | non-modal, with ordered rounded sizes within the full height: present anchors follow expansion order |
| Swipeable.FirstPresent | flexible-core/src/androidMain/kotlin/com/skydoves/flexible/core/FlexibleSwipeable.kt:138-146 | reference fallback chain: the result is Hidden iff no candidate is anchored, and otherwise the earliest anchored candidate |
| Swipeable.FallbackTarget | flexible-core/src/androidMain/kotlin/com/skydoves/flexible/core/FlexibleSwipeable.kt:128-149 | the new target is Hidden after Hidden; any other target is anchored; the result is Hidden iff the previous target was Hidden or no visible detent is anchored; FullyExpanded is chosen only when no partial detent is anchored |
| Swipeable.FallbackIsFirstPresent | flexible-core/src/androidMain/kotlin/com/skydoves/flexible/core/FlexibleSwipeable.kt:128-149 | the handler's new target is Hidden after Hidden, and otherwise the first anchored of Intermediately, Slightly, Fully expanded, with Hidden last |
| Swipeable.OnAnchorsChanged | flexible-core/src/androidMain/kotlin/com/skydoves/flexible/core/FlexibleSwipeable.kt:126-160 | fails iff the fallback target has no new anchor. It does nothing iff that anchor equals the old anchor of the previous target; a missing old anchor counts as different. Otherwise it animates at the last velocity when an animation runs or the old map was empty, and snaps otherwise; the target is always a new key |
| Swipeable.BuiltAnchorsAlwaysHandled | flexible-core/src/androidMain/kotlin/com/skydoves/flexible/core/FlexibleSwipeable.kt:127-151 | on an anchor map built by the modifier the handler never fails, and a sheet aimed at Hidden stays aimed at Hidden |
| Swipeable.FirstLayoutAnimates | flexible-core/src/androidMain/kotlin/com/skydoves/flexible/core/FlexibleSwipeable.kt:151-155 | with no previous anchors, an anchored target is always animated to at the last velocity |
| Swipeable.RestingResizeSnaps | flexible-core/src/androidMain/kotlin/com/skydoves/flexible/core/FlexibleSwipeable.kt:152-159 | at rest with previous anchors, a moved target offset makes the handler snap, not animate |
| SheetState.Create | flexible-core/src/androidMain/kotlin/com/skydoves/flexible/core/FlexibleSheetState.kt:55-79 | construction succeeds iff not (skipIntermediatelyExpanded and initial IntermediatelyExpanded) and not (skipHiddenState and initial Hidden); no check for SlightlyExpanded; a new state rests at the initial value with no anchors and no offset |
| SheetState.RequireOffset | flexible-core/src/androidMain/kotlin/com/skydoves/flexible/core/FlexibleSheetState.kt:106-122 | returns the offset once it exists, and the uninitialized-offset error before |
| SheetState.FullyExpand | flexible-core/src/androidMain/kotlin/com/skydoves/flexible/core/FlexibleSheetState.kt:151-158 | always allowed: two animations to FullyExpanded when non-modal, one when modal |
| SheetState.IntermediatelyExpand | flexible-core/src/androidMain/kotlin/com/skydoves/flexible/core/FlexibleSheetState.kt:166-177 | fails, before any animation, iff skipIntermediatelyExpanded; otherwise two (non-modal) or one (modal) animations to IntermediatelyExpanded |
| SheetState.SlightlyExpand | flexible-core/src/androidMain/kotlin/com/skydoves/flexible/core/FlexibleSheetState.kt:185-196 | fails, before any animation, iff skipSlightlyExpanded; otherwise two (non-modal) or one (modal) animations to SlightlyExpanded |
| SheetState.Hide | flexible-core/src/androidMain/kotlin/com/skydoves/flexible/core/FlexibleSheetState.kt:233-239 | fails, before any animation, iff skipHiddenState; otherwise exactly one animation to Hidden |
| SheetState.DefaultShowTarget | flexible-core/src/androidMain/kotlin/com/skydoves/flexible/core/FlexibleSheetState.kt:205-209 | show's default is IntermediatelyExpanded iff anchored, SlightlyExpanded iff only that is anchored, FullyExpanded otherwise; never Hidden |
| SheetState.Show | flexible-core/src/androidMain/kotlin/com/skydoves/flexible/core/FlexibleSheetState.kt:203-226 | the first animation aims at the default; non-modal adds a second one aimed at the explicit target or the default recomputed after the first animation |
| SheetState.ShowTargets | flexible-core/src/androidMain/kotlin/com/skydoves/flexible/core/FlexibleSheetState.kt:203-226 | without a target, show never animates to Hidden; when modal, the explicit target changes nothing; when non-modal, it decides the second animation |
| SheetState.ShowAgreesWithFallback | flexible-core/src/androidMain/kotlin/com/skydoves/flexible/core/FlexibleSheetState.kt:205-209 | when any visible detent is anchored, show's default equals the anchor-change handler's fallback for a sheet not aimed at Hidden |
| SheetState.BuiltAnchorsRespectSkipFlags | flexible-core/src/androidMain/kotlin/com/skydoves/flexible/core/FlexibleSheetState.kt:127-140 | with built anchors, a skipped detent is never reported present, and hasFullyExpandedState holds iff the content height is non-zero |
| SheetState.SkipFlagRemovesDetent | flexible-core/src/androidMain/kotlin/com/skydoves/flexible/core/FlexibleSheetState.kt:133-189 | on anchors built by the modifier, with a skip flag set, the detent is never reported present and its expand command always fails its check |
| SheetState.Restore | flexible-core/src/androidMain/kotlin/com/skydoves/flexible/core/FlexibleSheetState.kt:302-326 | a restored state carries the saver's parameters and skipHiddenState false |
| SheetState.SaverRoundTrip | flexible-core/src/androidMain/kotlin/com/skydoves/flexible/core/FlexibleSheetState.kt:311-325 | save then restore succeeds iff the sheet is not resting at a skipped intermediate detent. The restored state rests at the saved current value, with the same configuration except that skipHiddenState is false. `SheetState.Save` is the saver's save half: it stores the current value only |
| SheetState.CreatedStateRestores | flexible-core/src/androidMain/kotlin/com/skydoves/flexible/core/FlexibleSheetState.kt:67-78 | a state the constructor accepted can always be restored from its saved value |
| NestedScroll.OrientationRoundTrip | flexible-core/src/androidMain/kotlin/com/skydoves/flexible/core/FlexibleSheetState.kt:428-437 | projecting an embedded scalar gives it back; embedding a projection gives the offset back iff its other component is zero |
| NestedScroll.PreScroll | flexible-core/src/androidMain/kotlin/com/skydoves/flexible/core/FlexibleSheetState.kt:374-393 | when the scroll is an upward drag, or a downward scroll of a non-modal sheet that is not fully expanded, the calls are exactly onDragging(true) then dispatchRawDelta(delta), and the consumed amount is returned; otherwise the only call is onDragging(false) and zero is returned |
| NestedScroll.PostScroll | flexible-core/src/androidMain/kotlin/com/skydoves/flexible/core/FlexibleSheetState.kt:395-409 | a drag gives exactly onDragging(true) then dispatchRawDelta; other leftover scroll of a visible non-modal sheet gives dispatchRawDelta alone; anything else gives only onDragging(false). The consumed amount is returned when forwarded, zero otherwise |
| NestedScroll.PreFling | flexible-core/src/androidMain/kotlin/com/skydoves/flexible/core/FlexibleSheetState.kt:411-420 | fails iff no offset exists yet, whatever the velocity. An upward fling above minOffset goes to onFling and is consumed entirely; otherwise nothing is called and zero is returned |
| NestedScroll.PostFling | flexible-core/src/androidMain/kotlin/com/skydoves/flexible/core/FlexibleSheetState.kt:422-426 | always clears dragging, then passes the residual velocity to onFling, and returns all of it |
| NestedScroll.ConnectionFor | flexible-bottomsheet-material/src/commonMain/kotlin/com/skydoves/flexible/bottomsheet/material/FlexibleBottomSheet.kt:250-265 | the sheet installs the consuming connection iff allowNestedScroll is set, and the empty one otherwise |
| NestedScroll.ConnectionPreFling | flexible-core/src/androidMain/kotlin/com/skydoves/flexible/core/FlexibleSheetState.kt:355-365 | the empty connection takes no fling and calls nothing; the consuming one behaves as PreFling |
| NestedScroll.ConnectionPostFling | flexible-core/src/androidMain/kotlin/com/skydoves/flexible/core/FlexibleSheetState.kt:355-365 | the empty connection returns zero and calls nothing; the consuming one behaves as PostFling |
| NestedScroll.PreScrollFlingBranchRedundant | flexible-core/src/androidMain/kotlin/com/skydoves/flexible/core/FlexibleSheetState.kt:376-392 | a downward scroll of a fully expanded sheet is never taken, whether it comes from a fling or a drag |
| NestedScroll.ModalPreScrollTakesOnlyUpwardDrags | flexible-core/src/androidMain/kotlin/com/skydoves/flexible/core/FlexibleSheetState.kt:376-392 | a modal sheet forwards a pre-scroll iff it is an upward drag |
| NestedScroll.ScrollReachesSheet | flexible-core/src/androidMain/kotlin/com/skydoves/flexible/core/FlexibleSheetState.kt:374-409 | across the pre- and post-scroll phases, dispatchRawDelta is reached iff the source is a drag, or the sheet is non-modal and either visible or scrolled downwards; so no drag is lost, and a modal sheet never takes a fling's scroll |
| NestedScroll.PreFlingAllOrNothing | flexible-core/src/androidMain/kotlin/com/skydoves/flexible/core/FlexibleSheetState.kt:411-420 | a pre-fling consumes all of the velocity or none, and calls onFling exactly when it consumes a non-zero velocity |
| NestedScroll.FlingReachesSheet | flexible-core/src/androidMain/kotlin/com/skydoves/flexible/core/FlexibleSheetState.kt:353-426 | through the consuming connection every fling reaches onFling in the post-fling phase, and in the pre-fling phase iff it is upward above minOffset; the empty connection never calls it |
| NestedScroll.NestedScrollFlagDecidesFling | flexible-bottomsheet-material/src/commonMain/kotlin/com/skydoves/flexible/bottomsheet/material/FlexibleBottomSheet.kt:250-265 | through the connection the sheet installs: with allowNestedScroll clear no fling phase calls anything; with it set, every post-fling reaches onFling |
| BottomSheet.AnimateToDismiss | flexible-bottomsheet-material/src/commonMain/kotlin/com/skydoves/flexible/bottomsheet/material/FlexibleBottomSheet.kt:110-118 | nothing happens unless confirmValueChange(Hidden); then the events are exactly the hide launch, followed by the dismiss iff the sheet is not visible when hiding completes |
| BottomSheet.SettleToDismiss | flexible-bottomsheet-material/src/commonMain/kotlin/com/skydoves/flexible/bottomsheet/material/FlexibleBottomSheet.kt:119-123 | the events are exactly the settle launch, followed by the dismiss iff the sheet is not visible when settling completes |
| BottomSheet.SnapToWithFallback | flexible-bottomsheet-material/src/commonMain/kotlin/com/skydoves/flexible/bottomsheet/material/FlexibleBottomSheet.kt:132-137 | the events are exactly trySnapTo, followed by one suspending snapTo launch iff trySnapTo returned false |
| BottomSheet.DismissReportedLast | flexible-bottomsheet-material/src/commonMain/kotlin/com/skydoves/flexible/bottomsheet/material/FlexibleBottomSheet.kt:110-123 | on the animated dismiss, the settle and the dismiss-request step-down alike, a dismiss is reported at most once, as the second and last event, after one launch |
| BottomSheet.AnimatedDismissFailsIffHiddenSkipped | flexible-bottomsheet-material/src/commonMain/kotlin/com/skydoves/flexible/bottomsheet/material/FlexibleBottomSheet.kt:110-118 | the animated dismiss, run by the scrim (line 220) and the dismiss accessibility action (lines 308-311), is not guarded by skipHiddenState: once Hidden is confirmed its hide job fails its check iff the hidden state is skipped |
| BottomSheet.AnchorChangeEvents | flexible-bottomsheet-material/src/commonMain/kotlin/com/skydoves/flexible/bottomsheet/material/FlexibleBottomSheet.kt:126-139 | no request gives no event. A re-aim launches animateTo with the handler's velocity, and a snap goes through the trySnapTo fallback |
| BottomSheet.ResizeMovesToFallbackTarget | flexible-bottomsheet-material/src/commonMain/kotlin/com/skydoves/flexible/bottomsheet/material/FlexibleBottomSheet.kt:126-139 | after a layout builds the anchors, the sheet does nothing iff the fallback target's offset is unchanged. Otherwise it launches one animateTo (running animation or first layout) or begins with trySnapTo, always towards the fallback target |
| BottomSheet.IsInitializedIffComplete | flexible-bottomsheet-material/src/commonMain/kotlin/com/skydoves/flexible/bottomsheet/material/FlexibleBottomSheet.kt:145-153 | four anchor entries iff every detent is anchored |
| BottomSheet.InitializedFromBuiltAnchors | flexible-bottomsheet-material/src/commonMain/kotlin/com/skydoves/flexible/bottomsheet/material/FlexibleBottomSheet.kt:145-153 | with built anchors, initialized iff the content is measured non-empty, no partial detent is skipped, and the content reaches both thresholds |
| BottomSheet.DismissRequestStepDown | flexible-bottomsheet-material/src/commonMain/kotlin/com/skydoves/flexible/bottomsheet/material/FlexibleBottomSheet.kt:156-168 | from FullyExpanded with an intermediate anchor it launches intermediatelyExpand. From IntermediatelyExpanded with a slight anchor it launches slightlyExpand. Otherwise it hides and then dismisses unconditionally; the dismiss fires iff hide is launched |
| BottomSheet.StepDownJobFailsOnlyOnSkippedHide | flexible-bottomsheet-material/src/commonMain/kotlin/com/skydoves/flexible/bottomsheet/material/FlexibleBottomSheet.kt:156-168 | when skipped detents carry no anchor, the step-down job fails its check iff it is hide and skipHiddenState is set |
| BottomSheet.StepDownHidesWithoutPartialDetents | flexible-bottomsheet-material/src/commonMain/kotlin/com/skydoves/flexible/bottomsheet/material/FlexibleBottomSheet.kt:156-168 | without partial anchors a dismiss request always hides and then dismisses |
| BottomSheet.SheetAlpha | flexible-bottomsheet-material/src/commonMain/kotlin/com/skydoves/flexible/bottomsheet/material/FlexibleBottomSheet.kt:205-214 | alpha is 0 or 1; it is 0 iff the target is Hidden and the sheet is neither dragged nor animating |
| BottomSheet.TruncateToInt | flexible-bottomsheet-material/src/commonMain/kotlin/com/skydoves/flexible/bottomsheet/material/FlexibleBottomSheet.kt:233-235 | the integer offset is the real offset truncated toward zero |
| BottomSheet.VerticalOffset | flexible-bottomsheet-material/src/commonMain/kotlin/com/skydoves/flexible/bottomsheet/material/FlexibleBottomSheet.kt:232-249 | fails iff no offset exists. Modal always uses the truncated offset; non-modal uses it only while dragged or animating, and 0 at rest |
| BottomSheet.SheetHeight | flexible-bottomsheet-material/src/commonMain/kotlin/com/skydoves/flexible/bottomsheet/material/FlexibleBottomSheet.kt:176-200 | modal iff the container fills the screen. Non-modal: the fully expanded height while dragged or animating, and the target's expected size at rest (1 dp for Hidden) |
| BottomSheet.RestingSheetHeight | flexible-bottomsheet-material/src/commonMain/kotlin/com/skydoves/flexible/bottomsheet/material/FlexibleBottomSheet.kt:179-188 | a resting non-modal sheet is 1 dp tall when aimed at Hidden, and otherwise its target's fraction of the screen height |
| BottomSheet.RestingHiddenSheetVanishes | flexible-bottomsheet-material/src/commonMain/kotlin/com/skydoves/flexible/bottomsheet/material/FlexibleBottomSheet.kt:176-249 | a non-modal sheet at rest aimed at Hidden has alpha 0, vertical offset 0 and a 1 dp height; while dragged or animating any sheet is opaque and drawn at its truncated offset |
| BottomSheet.FullyExpandedHeightStable | flexible-bottomsheet-material/src/commonMain/kotlin/com/skydoves/flexible/bottomsheet/material/FlexibleBottomSheet.kt:176-200 | a non-modal sheet aimed at FullyExpanded has the same height at rest as while moving |
| BottomSheet.AsWrittenActionFailsOnSkippedIntermediate | flexible-bottomsheet-material/src/commonMain/kotlin/com/skydoves/flexible/bottomsheet/material/FlexibleBottomSheet.kt:307-354 | as written, the accessibility action's job fails its check iff it expands a slightly expanded sheet whose intermediate detent is skipped |
| BottomSheet.ExpandFromSlightFailsAsWritten | flexible-bottomsheet-material/src/commonMain/kotlin/com/skydoves/flexible/bottomsheet/material/FlexibleBottomSheet.kt:322-331 | a concrete sheet with built anchors where the as-written expand action launches a failing intermediatelyExpand |
| BottomSheet.AccessibilityActionFor | flexible-bottomsheet-material/src/commonMain/kotlin/com/skydoves/flexible/bottomsheet/material/FlexibleBottomSheet.kt:307-354 | corrected choice: an IntermediatelyExpanded sheet expands to FullyExpanded; a SlightlyExpanded sheet expands to IntermediatelyExpanded iff that detent is anchored, and to FullyExpanded otherwise; a collapse goes to IntermediatelyExpanded whenever it is anchored and else to an anchored SlightlyExpanded; no action is offered iff the sheet is neither intermediately nor slightly expanded and has no partial anchor |
| BottomSheet.AccessibilityJobsNeverFail | flexible-bottomsheet-material/src/commonMain/kotlin/com/skydoves/flexible/bottomsheet/material/FlexibleBottomSheet.kt:307-354 | with the correction and skipped detents unanchored, the job of every offered expand or collapse action passes its check (the dismiss action is covered by `BottomSheet.AnimatedDismissFailsIffHiddenSkipped`) |
| BottomSheet.AccessibilityActionAsWritten | flexible-bottomsheet-material/src/commonMain/kotlin/com/skydoves/flexible/bottomsheet/material/FlexibleBottomSheet.kt:312-354 | the choice as written: an IntermediatelyExpanded sheet expands to FullyExpanded; a SlightlyExpanded sheet always expands to IntermediatelyExpanded; a collapse goes to IntermediatelyExpanded whenever it is anchored and else to an anchored SlightlyExpanded; no action iff the sheet is neither intermediately nor slightly expanded and has no partial anchor |
| BottomSheet.CorrectionIsLocal | flexible-bottomsheet-material/src/commonMain/kotlin/com/skydoves/flexible/bottomsheet/material/FlexibleBottomSheet.kt:322-331 | the corrected choice differs from the written one iff the sheet is slightly expanded without an intermediate anchor |
| BottomSheet.PerformAccessibilityAction | flexible-bottomsheet-material/src/commonMain/kotlin/com/skydoves/flexible/bottomsheet/material/FlexibleBottomSheet.kt:313-353 | an action launches the command for its target iff confirmValueChange approves that target, and otherwise does nothing |
| BottomSheet.InitialShow | flexible-bottomsheet-material/src/commonMain/kotlin/com/skydoves/flexible/bottomsheet/material/FlexibleBottomSheet.kt:366-370 | the show effect is present, and launches show, iff a FullyExpanded anchor exists |
| BottomSheet.InitialShowWaitsForContent | flexible-bottomsheet-material/src/commonMain/kotlin/com/skydoves/flexible/bottomsheet/material/FlexibleBottomSheet.kt:366-370 | with built anchors, the first show is launched iff the content is measured non-empty |

## Findings

| source | as written | input that shows it | evidently intended | confidence | as-written member | corrected member |
|---|---|---|---|---|---|---|
| flexible-bottomsheet-material/src/commonMain/kotlin/com/skydoves/flexible/bottomsheet/material/FlexibleBottomSheet.kt:322-331 | From SlightlyExpanded, the expand action launches `intermediatelyExpand()`. It does not first ask whether the intermediate detent exists. | skipIntermediatelyExpanded = true, skipSlightlyExpanded = false, sheet resting at SlightlyExpanded (what `show()` picks there), confirmValueChange always true. The launched `intermediatelyExpand()` fails its `check` with an IllegalStateException inside the coroutine. | Expand to IntermediatelyExpanded only when it is anchored, else to FullyExpanded, as the collapse branches and the dismiss step-down already guard on `has…State`. | medium; not executed | BottomSheet.AsWrittenActionFailsOnSkippedIntermediate | BottomSheet.AccessibilityJobsNeverFail |

`BottomSheet.ExpandFromSlightFailsAsWritten` gives the concrete sheet for
this row. `BottomSheet.AccessibilityActionAsWritten` is the choice as written.
`BottomSheet.AccessibilityActionFor` is the corrected choice.
`BottomSheet.CorrectionIsLocal` proves that the two differ only in that one case.

## Left out

- **Swipeable state internals.** The following are not modelled: `animateTo`,
  `snapTo`, `trySnapTo` and `settle` of the underlying swipeable state,
  clamping inside `dispatchRawDelta`, and how `minOffset`, `lastVelocity`
  and `isAnimationRunning` evolve. Their source is not part of this model.
  They appear only as record fields, as the opaque `dispatch` parameter, as
  launched `Job`s, and as the `trySnapSucceeded` parameter.
- **Wrapper delegations.** The sheet's own `animateTo`, `snapTo`, `trySnapTo`
  and `settle` (FlexibleSheetState.kt:251-290) only delegate to the swipeable
  state. They appear as `SwipeCall` entries and `Job`s.
- **Coroutines.** Scheduling, cancellation and the timing of
  `invokeOnCompletion` are not modelled. Each launch is one event. What a
  completion handler reads is a parameter.
- **Floating point.** Float arithmetic, `roundToInt` and Dp/px conversion are
  not modelled. The rounded sizes, the dp screen height and the px heights are
  separate inputs. The handler's offset comparison is equality of reals, so
  NaN and signed zero are not modelled.
- TruncateToInt: truncates an unbounded real. Kotlin's `Float.toInt()` also
  saturates at Int.MIN_VALUE and Int.MAX_VALUE and maps NaN to 0; pixel
  offsets stay far from those limits, and NaN is not modelled.
- **Initial velocity and minimum offset.** `SheetState.InitialSwipeable` gives
  them 0.0 only so the record has a value. The underlying state's real
  initial values are not part of this model.
- **Effect keying.** `LaunchedEffect(sheetState)` (FlexibleBottomSheet.kt:366-370)
  sits inside `if (hasFullyExpandedState)`. Composition and effect lifecycles
  are not modelled, so `BottomSheet.InitialShow` says only when the effect is
  present, not how often it relaunches as the FullyExpanded anchor comes and goes.
- **Float products.** The modal screen shares and the non-modal rounded sizes
  are `Swipeable.Layout` inputs. The model does not compute them from the
  screen height and fractions.
- **Target-change callback.** The `onTargetChanges` effect
  (FlexibleBottomSheet.kt:141-143) only forwards the target value.
- **Drag gesture wiring.** The `draggable` setup (FlexibleSwipeable.kt:37-44),
  which is enabled while visible and starts immediately while animating, is
  gesture plumbing.
- **State factories.** `rememberFlexibleBottomSheetState` and
  `rememberFlexibleSheetState` (FlexibleSheetState.kt:455-517) are composition
  helpers. Only their saver is modelled.
- **Other UI.** The popup and window code, the scrim, the sheet paddings,
  theming defaults, labels, shapes, colours and the demo apps are not part
  of the detent logic.

=== FILE: BottomSheet.dfy ===
/** The decision rules of the material flexible bottom sheet: how it
    dismisses, how it carries out the anchor-change handler's requests, when
    it counts as initialized, how it steps down on a dismiss request, its
    alpha, offset and height, its accessibility actions and its first show. */
module BottomSheet {
  import opened Wrappers
  import opened SheetValues
  import opened SheetSizes
  import Swipeable
  import opened SheetState

  /** A coroutine the sheet launches, named by the suspending call it runs. */
  datatype Job =
    | HideJob
    | SettleJob(velocity: real)
    | AnimateToJob(target: SheetValue, velocity: real)
    | SnapToJob(target: SheetValue)
    | IntermediatelyExpandJob
    | SlightlyExpandJob
    | FullyExpandJob
    | ShowJob

  /** What the sheet does, in order. */
  datatype UiEvent =
    | Launch(job: Job)              // scope.launch { ... }
    | TrySnapTo(target: SheetValue) // the synchronous trySnapTo
    | DismissRequest                // the owner's onDismissRequest

  /** Whether a launched job fails the `check` its command starts with. */
  predicate JobFails(s: FlexibleSheetState, job: Job)
  {
    match job
    case HideJob => SheetState.Hide(s).Failure?
    case IntermediatelyExpandJob => SheetState.IntermediatelyExpand(s).Failure?
    case SlightlyExpandJob => SheetState.SlightlyExpand(s).Failure?
    case _ => false
  }

  /** animateToDismiss: only when the owner confirms Hidden, launch hide and,
      when it completes with the sheet no longer visible, report the dismiss.
      `visibleWhenDone` is the sheet's visibility at completion. */
  function AnimateToDismiss(confirmValueChange: SheetValue -> bool, visibleWhenDone: bool): (r: seq<UiEvent>)
    ensures !confirmValueChange(Hidden) ==> r == []
    ensures confirmValueChange(Hidden) && visibleWhenDone ==> r == [Launch(HideJob)]
    ensures confirmValueChange(Hidden) && !visibleWhenDone ==> r == [Launch(HideJob), DismissRequest]
  {
    if confirmValueChange(Hidden) then
      [Launch(HideJob)] + (if !visibleWhenDone then [DismissRequest] else [])
    else
      []
  }

  /** settleToDismiss: launch settle and report the dismiss when it
      completes with the sheet no longer visible. */
  function SettleToDismiss(velocity: real, visibleWhenDone: bool): (r: seq<UiEvent>)
    ensures visibleWhenDone ==> r == [Launch(SettleJob(velocity))]
    ensures !visibleWhenDone ==> r == [Launch(SettleJob(velocity)), DismissRequest]
  {
    [Launch(SettleJob(velocity))] + (if !visibleWhenDone then [DismissRequest] else [])
  }

  /** The handler's snapTo callback: try the synchronous snap, and launch the
      suspending snap only when that did not succeed. */
  function SnapToWithFallback(target: SheetValue, trySnapSucceeded: bool): (r: seq<UiEvent>)
    ensures trySnapSucceeded ==> r == [TrySnapTo(target)]
    ensures !trySnapSucceeded ==> r == [TrySnapTo(target), Launch(SnapToJob(target))]
  {
    [TrySnapTo(target)] + (if !trySnapSucceeded then [Launch(SnapToJob(target))] else [])
  }

  /** Every dismiss path reports the dismiss at most once, only as its last
      event and only after a launched job: the animated dismiss, the settle
      and the step-down of a dismiss request alike. */
  lemma DismissReportedLast(s: FlexibleSheetState, confirmValueChange: SheetValue -> bool,
                            velocity: real, visibleWhenDone: bool)
    ensures DismissesLast(AnimateToDismiss(confirmValueChange, visibleWhenDone))
    ensures DismissesLast(SettleToDismiss(velocity, visibleWhenDone))
    ensures DismissesLast(DismissRequestStepDown(s))
  {
  }

  /** A reported dismiss is the second and last event, after one launch. */
  predicate DismissesLast(r: seq<UiEvent>)
  {
    DismissRequest in r ==> |r| == 2 && r[0].Launch? && r[1] == DismissRequest
  }

  /** The animated dismiss, which the scrim and the dismiss accessibility
      action both run, is not guarded by skipHiddenState: once the owner
      confirms Hidden it launches hide, and that job fails its check exactly
      when the hidden state is skipped. */
  lemma AnimatedDismissFailsIffHiddenSkipped(s: FlexibleSheetState, confirmValueChange: SheetValue -> bool,
                                             visibleWhenDone: bool)
    requires confirmValueChange(Hidden)
    ensures var r := AnimateToDismiss(confirmValueChange, visibleWhenDone);
      r[0].Launch? && (JobFails(s, r[0].job) <==> s.config.skipHiddenState)
  {
  }

  /** Carries out one request of the anchor-change handler. */
  function AnchorChangeEvents(change: Swipeable.AnchorChange, trySnapSucceeded: bool): (r: seq<UiEvent>)
    ensures change.KeepOffset? <==> r == []
    ensures change.AnimateTo? ==> r == [Launch(AnimateToJob(change.target, change.velocity))]
    ensures change.SnapTo? ==> r == SnapToWithFallback(change.target, trySnapSucceeded)
  {
    match change
    case KeepOffset => []
    case AnimateTo(target, velocity) => [Launch(AnimateToJob(target, velocity))]
    case SnapTo(target) => SnapToWithFallback(target, trySnapSucceeded)
  }

  /** After a layout that built the anchors, the sheet moves to the
      handler's fallback target by exactly one of the two callbacks, or by
      neither when that target's offset did not change. */
  lemma ResizeMovesToFallbackTarget(
    previousTarget: SheetValue, previousAnchors: Anchors, inputs: Swipeable.AnchorInputs,
    isAnimationRunning: bool, lastVelocity: real, trySnapSucceeded: bool)
    ensures var newAnchors := Swipeable.BuildAnchors(inputs);
      var change := Swipeable.OnAnchorsChanged(previousTarget, previousAnchors, newAnchors,
                                               isAnimationRunning, lastVelocity);
      var target := Swipeable.FallbackTarget(previousTarget, newAnchors);
      var events := AnchorChangeEvents(change.value, trySnapSucceeded);
      && change.Success?
      && (events == [] <==> previousTarget in previousAnchors && newAnchors[target] == previousAnchors[previousTarget])
      && (events != [] ==>
            if isAnimationRunning || |previousAnchors| == 0 then events == [Launch(AnimateToJob(target, lastVelocity))]
            else events[0] == TrySnapTo(target))
  {
    Swipeable.BuiltAnchorsAlwaysHandled(previousTarget, previousAnchors, inputs, isAnimationRunning, lastVelocity);
  }

  /** The sheet counts as initialized when its anchor map has as many
      entries as there are detents. */
  predicate IsInitialized(anchors: Anchors)
  {
    |anchors| == 4
  }

  /** Initialized means every detent is anchored. */
  lemma IsInitializedIffComplete(anchors: Anchors)
    ensures IsInitialized(anchors) <==> forall v: SheetValue :: v in anchors
  {
    FourEntriesIffComplete(anchors);
  }

  /** With built anchors, the sheet is initialized exactly when no partial
      detent is skipped and the content is measured and at least as tall as
      both thresholds. */
  lemma InitializedFromBuiltAnchors(inputs: Swipeable.AnchorInputs)
    ensures IsInitialized(Swipeable.BuildAnchors(inputs)) <==>
      && inputs.layout.measuredHeight != 0
      && !inputs.skipIntermediatelyExpanded && !inputs.skipSlightlyExpanded
      && inputs.layout.measuredHeight as real >= Swipeable.Threshold(IntermediatelyExpanded, inputs)
      && inputs.layout.measuredHeight as real >= Swipeable.Threshold(SlightlyExpanded, inputs)
  {
    var a := Swipeable.BuildAnchors(inputs);
    IsInitializedIffComplete(a);
    Swipeable.FullyExpandedAnchor(inputs);
    Swipeable.DetentPresence(IntermediatelyExpanded, inputs);
    Swipeable.DetentPresence(SlightlyExpanded, inputs);
    if IsInitialized(a) {
      assert FullyExpanded in a && IntermediatelyExpanded in a && SlightlyExpanded in a;
    } else {
      var v: SheetValue :| v !in a;
    }
  }

  /** The popup's dismiss request steps down one detent: from
      FullyExpanded to an anchored intermediate detent, from
      IntermediatelyExpanded to an anchored slight detent, and otherwise
      hides and then reports the dismiss once hiding has completed, however
      it completed. */
  function DismissRequestStepDown(s: FlexibleSheetState): (r: seq<UiEvent>)
    ensures s.swipeable.currentValue == FullyExpanded && HasIntermediatelyExpandedState(s) ==>
      r == [Launch(IntermediatelyExpandJob)]
    ensures s.swipeable.currentValue == IntermediatelyExpanded && HasSlightlyExpandedState(s) ==>
      r == [Launch(SlightlyExpandJob)]
    ensures !(s.swipeable.currentValue == FullyExpanded && HasIntermediatelyExpandedState(s)) &&
            !(s.swipeable.currentValue == IntermediatelyExpanded && HasSlightlyExpandedState(s)) ==>
      r == [Launch(HideJob), DismissRequest]
    ensures DismissRequest in r <==> Launch(HideJob) in r
    ensures |r| > 0 && r[0].Launch?
  {
    if s.swipeable.currentValue == FullyExpanded && HasIntermediatelyExpandedState(s) then
      [Launch(IntermediatelyExpandJob)]
    else if s.swipeable.currentValue == IntermediatelyExpanded && HasSlightlyExpandedState(s) then
      [Launch(SlightlyExpandJob)]
    else
      [Launch(HideJob), DismissRequest]
  }

  /** When skipped detents carry no anchor, the job a dismiss request
      launches fails its check only when it hides a sheet whose hidden state
      is skipped. */
  lemma StepDownJobFailsOnlyOnSkippedHide(s: FlexibleSheetState)
    requires RespectsSkipFlags(s)
    ensures var job := DismissRequestStepDown(s)[0].job;
      JobFails(s, job) <==> job == HideJob && s.config.skipHiddenState
  {
  }

  /** A dismiss request on a sheet with no partial detents anchored always
      hides and dismisses. */
  lemma StepDownHidesWithoutPartialDetents(s: FlexibleSheetState)
    requires !HasIntermediatelyExpandedState(s) && !HasSlightlyExpandedState(s)
    ensures DismissRequestStepDown(s) == [Launch(HideJob), DismissRequest]
  {
  }

  /** The sheet's alpha: transparent only while aimed at Hidden and neither
      dragged nor animating. */
  function SheetAlpha(targetValue: SheetValue, isDragging: bool, isAnimationRunning: bool): (r: real)
    ensures r == 0.0 || r == 1.0
    ensures r == 0.0 <==> targetValue == Hidden && !isDragging && !isAnimationRunning
  {
    if targetValue == Hidden && !isDragging && !isAnimationRunning then 0.0 else 1.0
  }

  /** Float.toInt: truncation toward zero. */
  function TruncateToInt(x: real): (r: int)
    ensures 0.0 <= x ==> 0 <= r && r as real <= x < r as real + 1.0
    ensures x < 0.0 ==> r <= 0 && r as real - 1.0 < x <= r as real
  {
    if x >= 0.0 then x.Floor else -((-x).Floor)
  }

  /** The vertical offset the sheet surface is placed at. The offset is
      always read (failing before the first layout); a modal sheet always
      uses it, a non-modal one only while dragged or animating, and 0
      otherwise. */
  function VerticalOffset(s: FlexibleSheetState, isDragging: bool): (r: Result<int, SheetError>)
    ensures r.Failure? <==> s.swipeable.offset.None?
    ensures r.Success? && (s.config.isModal || isDragging || s.swipeable.isAnimationRunning) ==>
      r.value == TruncateToInt(s.swipeable.offset.value)
    ensures r.Success? && !s.config.isModal && !isDragging && !s.swipeable.isAnimationRunning ==> r.value == 0
  {
    match RequireOffset(s)
    case Failure(e) => Failure(e)
    case Success(o) =>
      var offset := TruncateToInt(o);
      if s.config.isModal then Success(offset)
      else if isDragging || s.swipeable.isAnimationRunning then Success(offset)
      else Success(0)
  }

  /** A non-modal sheet resting aimed at Hidden is invisible and takes no
      room: alpha 0, offset 0 and a one-dp container. While dragged or
      animating, any sheet is opaque and placed at its truncated offset. */
  lemma RestingHiddenSheetVanishes(s: FlexibleSheetState, screenHeight: real, isDragging: bool)
    requires s.swipeable.offset.Some?
    ensures !s.config.isModal && s.swipeable.targetValue == Hidden && !isDragging && !s.swipeable.isAnimationRunning ==>
      && SheetAlpha(s.swipeable.targetValue, isDragging, s.swipeable.isAnimationRunning) == 0.0
      && VerticalOffset(s, isDragging) == Success(0)
      && SheetHeight(s, screenHeight, isDragging) == Height(1.0)
    ensures isDragging || s.swipeable.isAnimationRunning ==>
      && SheetAlpha(s.swipeable.targetValue, isDragging, s.swipeable.isAnimationRunning) == 1.0
      && VerticalOffset(s, isDragging) == Success(TruncateToInt(s.swipeable.offset.value))
  {
  }

  /** The height the sheet container is given, in dp. */
  datatype HeightSpec = FillMaxSize | Height(dp: real)

  /** The content size expected for a target, in dp: one dp for Hidden,
      the configured fraction of the screen otherwise. */
  function ExpectedSheetSize(size: SheetSize, target: SheetValue, screenHeight: real): real
  {
    if target == Hidden then 1.0 else screenHeight * Fraction(size, target)
  }

  /** The container height: the whole screen when modal; when non-modal, the
      fully expanded height while dragged or animating and the target's
      expected size at rest. */
  function SheetHeight(s: FlexibleSheetState, screenHeight: real, isDragging: bool): (r: HeightSpec)
    ensures s.config.isModal <==> r == FillMaxSize
    ensures !s.config.isModal && (isDragging || s.swipeable.isAnimationRunning) ==>
      r == Height(screenHeight * s.config.sheetSize.fullyExpanded)
    ensures !s.config.isModal && !isDragging && !s.swipeable.isAnimationRunning ==>
      r == Height(ExpectedSheetSize(s.config.sheetSize, s.swipeable.targetValue, screenHeight))
  {
    if s.config.isModal then FillMaxSize
    else if isDragging || s.swipeable.isAnimationRunning then
      Height(screenHeight * s.config.sheetSize.fullyExpanded)
    else
      Height(ExpectedSheetSize(s.config.sheetSize, s.swipeable.targetValue, screenHeight))
  }

  /** At rest, a non-modal sheet is given the height its target asks for:
      one dp when hidden and the target's share of the screen otherwise. */
  lemma RestingSheetHeight(s: FlexibleSheetState, screenHeight: real)
    requires !s.config.isModal && !s.swipeable.isAnimationRunning
    ensures var h := SheetHeight(s, screenHeight, false);
      var size := s.config.sheetSize;
      && (s.swipeable.targetValue == Hidden ==> h == Height(1.0))
      && (s.swipeable.targetValue == FullyExpanded ==> h == Height(screenHeight * size.fullyExpanded))
      && (s.swipeable.targetValue == IntermediatelyExpanded ==> h == Height(screenHeight * size.intermediatelyExpanded))
      && (s.swipeable.targetValue == SlightlyExpanded ==> h == Height(screenHeight * size.slightlyExpanded))
  {
  }

  /** At rest and aimed at FullyExpanded, a non-modal sheet keeps the same
      height as while moving, so settling there causes no jump in height. */
  lemma FullyExpandedHeightStable(s: FlexibleSheetState, screenHeight: real)
    requires !s.config.isModal && s.swipeable.targetValue == FullyExpanded
    ensures SheetHeight(s, screenHeight, false) == SheetHeight(s, screenHeight, true)
  {
  }

  /** The expand or collapse accessibility action offered besides dismiss. */
  datatype AccessibilityAction = Expand(target: SheetValue) | Collapse(target: SheetValue)

  /** The command that moves the sheet to a detent. */
  function JobFor(target: SheetValue): (job: Job)
    ensures job != ShowJob
  {
    match target
    case Hidden => HideJob
    case FullyExpanded => FullyExpandJob
    case IntermediatelyExpanded => IntermediatelyExpandJob
    case SlightlyExpanded => SlightlyExpandJob
  }

  /** The action the drag handle offers as the source writes it: expand to
      FullyExpanded from IntermediatelyExpanded, expand to
      IntermediatelyExpanded from SlightlyExpanded, and otherwise collapse to
      the intermediate or else the slight detent if anchored. */
  function AccessibilityActionAsWritten(s: FlexibleSheetState): (r: Option<AccessibilityAction>)
    ensures r.Some? && r.value.Expand? ==> ExpansionRank(r.value.target) > ExpansionRank(s.swipeable.currentValue)
    ensures r.Some? && r.value.Collapse? ==> r.value.target in s.swipeable.anchors
    ensures s.swipeable.currentValue == SlightlyExpanded ==> r == Some(Expand(IntermediatelyExpanded))
    ensures s.swipeable.currentValue == IntermediatelyExpanded ==> r == Some(Expand(FullyExpanded))
    ensures r.Some? && r.value.Collapse? && HasIntermediatelyExpandedState(s) ==> r.value.target == IntermediatelyExpanded
    ensures r.None? <==>
      s.swipeable.currentValue != IntermediatelyExpanded && s.swipeable.currentValue != SlightlyExpanded &&
      !HasIntermediatelyExpandedState(s) && !HasSlightlyExpandedState(s)
  {
    if s.swipeable.currentValue == IntermediatelyExpanded then Some(Expand(FullyExpanded))
    else if s.swipeable.currentValue == SlightlyExpanded then Some(Expand(IntermediatelyExpanded))
    else if HasIntermediatelyExpandedState(s) then Some(Collapse(IntermediatelyExpanded))
    else if HasSlightlyExpandedState(s) then Some(Collapse(SlightlyExpanded))
    else None
  }

  /** As written, the offered action's job fails exactly when it expands a
      slightly expanded sheet whose intermediate detent is skipped. */
  lemma AsWrittenActionFailsOnSkippedIntermediate(s: FlexibleSheetState)
    requires RespectsSkipFlags(s)
    requires AccessibilityActionAsWritten(s).Some?
    ensures JobFails(s, JobFor(AccessibilityActionAsWritten(s).value.target)) <==>
      s.swipeable.currentValue == SlightlyExpanded && s.config.skipIntermediatelyExpanded
  {
  }

  /** A concrete sheet: non-modal, intermediate detent skipped, slight
      detent kept, anchors built from a 1000 px layout, resting at
      SlightlyExpanded. The as-written expand action launches
      intermediatelyExpand, whose check fails. */
  lemma ExpandFromSlightFailsAsWritten()
    ensures var config := SheetConfig(true, false, DefaultSheetSize, false, true, false, false);
      var layout := Swipeable.Layout(1000, 1000.0, 1000.0, 1000.0, 1000.0, 500.0, 250.0, 500, 250);
      var anchors := Swipeable.BuildAnchors(AnchorInputsFor(config, layout));
      var s := FlexibleSheetState(config,
        SwipeableState(SlightlyExpanded, SlightlyExpanded, anchors, false, 0.0, 0.0, Some(750.0)));
      && AnchorsBuiltFrom(s, layout)
      && SlightlyExpanded in anchors
      && AccessibilityActionAsWritten(s) == Some(Expand(IntermediatelyExpanded))
      && JobFails(s, JobFor(IntermediatelyExpanded))
  {
    var config := SheetConfig(true, false, DefaultSheetSize, false, true, false, false);
    var layout := Swipeable.Layout(1000, 1000.0, 1000.0, 1000.0, 1000.0, 500.0, 250.0, 500, 250);
    var inputs := AnchorInputsFor(config, layout);
    Swipeable.DetentPresence(SlightlyExpanded, inputs);
  }

  /** The corrected action: from SlightlyExpanded, expand to the
      intermediate detent only when it is anchored, and to FullyExpanded
      otherwise. The other cases are as written. */
  function AccessibilityActionFor(s: FlexibleSheetState): (r: Option<AccessibilityAction>)
    ensures r.Some? && r.value.Expand? ==> ExpansionRank(r.value.target) > ExpansionRank(s.swipeable.currentValue)
    ensures r.Some? && r.value.Collapse? ==> r.value.target in s.swipeable.anchors
    ensures s.swipeable.currentValue == IntermediatelyExpanded ==> r == Some(Expand(FullyExpanded))
    ensures s.swipeable.currentValue == SlightlyExpanded ==>
      r == Some(Expand(if HasIntermediatelyExpandedState(s) then IntermediatelyExpanded else FullyExpanded))
    ensures r.Some? && r.value.Collapse? && HasIntermediatelyExpandedState(s) ==> r.value.target == IntermediatelyExpanded
    ensures r.None? <==>
      s.swipeable.currentValue != IntermediatelyExpanded && s.swipeable.currentValue != SlightlyExpanded &&
      !HasIntermediatelyExpandedState(s) && !HasSlightlyExpandedState(s)
  {
    if s.swipeable.currentValue == IntermediatelyExpanded then Some(Expand(FullyExpanded))
    else if s.swipeable.currentValue == SlightlyExpanded then
      if HasIntermediatelyExpandedState(s) then Some(Expand(IntermediatelyExpanded))
      else Some(Expand(FullyExpanded))
    else if HasIntermediatelyExpandedState(s) then Some(Collapse(IntermediatelyExpanded))
    else if HasSlightlyExpandedState(s) then Some(Collapse(SlightlyExpanded))
    else None
  }

  /** With the correction, no offered action launches a job that fails its
      check, as long as skipped detents carry no anchor. */
  lemma AccessibilityJobsNeverFail(s: FlexibleSheetState)
    requires RespectsSkipFlags(s)
    requires AccessibilityActionFor(s).Some?
    ensures !JobFails(s, JobFor(AccessibilityActionFor(s).value.target))
  {
  }

  /** The correction only changes the expand action of a slightly expanded
      sheet without an intermediate anchor. */
  lemma CorrectionIsLocal(s: FlexibleSheetState)
    ensures AccessibilityActionFor(s) != AccessibilityActionAsWritten(s) <==>
      s.swipeable.currentValue == SlightlyExpanded && !HasIntermediatelyExpandedState(s)
  {
  }

  /** Performing an accessibility action: the job for its target is launched
      only if the owner confirms that target. */
  function PerformAccessibilityAction(action: AccessibilityAction, confirmValueChange: SheetValue -> bool): (r: seq<UiEvent>)
    ensures confirmValueChange(action.target) <==> r == [Launch(JobFor(action.target))]
    ensures !confirmValueChange(action.target) <==> r == []
  {
    if confirmValueChange(action.target) then [Launch(JobFor(action.target))] else []
  }

  /** The sheet's show effect: present in a composition exactly when a
      FullyExpanded anchor exists. */
  function InitialShow(s: FlexibleSheetState): (r: seq<UiEvent>)
    ensures r != [] <==> HasFullyExpandedState(s)
    ensures r != [] ==> r == [Launch(ShowJob)]
  {
    if HasFullyExpandedState(s) then [Launch(ShowJob)] else []
  }

  /** With built anchors, the show effect waits for a measured, non-empty
      content. */
  lemma InitialShowWaitsForContent(s: FlexibleSheetState, layout: Swipeable.Layout)
    requires AnchorsBuiltFrom(s, layout)
    ensures InitialShow(s) != [] <==> layout.measuredHeight != 0
  {
    BuiltAnchorsRespectSkipFlags(s, layout);
  }
}

=== FILE: NestedScroll.dfy ===
/** Nested-scroll delegation: which scroll and fling events the sheet takes
    from its inner scrollable content, and the projection of two-dimensional
    offsets and velocities onto the sheet's axis. */
module NestedScroll {
  import opened Wrappers
  import opened SheetValues
  import opened SheetState

  datatype Orientation = Horizontal | Vertical

  /** A two-dimensional scroll amount in pixels. */
  datatype Offset = Offset(x: real, y: real)

  /** A two-dimensional velocity in pixels per second. */
  datatype Velocity = Velocity(x: real, y: real)

  const ZeroOffset: Offset := Offset(0.0, 0.0)
  const ZeroVelocity: Velocity := Velocity(0.0, 0.0)

  /** Where a scroll event comes from. */
  datatype ScrollSource = Drag | Fling | OtherSource

  /** Puts a scalar on the axis of `o`; the other component is zero. */
  function ToOffset(o: Orientation, v: real): Offset
  {
    Offset(if o == Horizontal then v else 0.0, if o == Vertical then v else 0.0)
  }

  /** The component of an offset along `o`. */
  function OffsetToFloat(o: Orientation, off: Offset): real
  {
    if o == Horizontal then off.x else off.y
  }

  /** The component of a velocity along `o`. */
  function VelocityToFloat(o: Orientation, vel: Velocity): real
  {
    if o == Horizontal then vel.x else vel.y
  }

  /** Projection undoes embedding; embedding undoes projection exactly for
      the offsets that lie on the axis. */
  lemma OrientationRoundTrip(o: Orientation, v: real, off: Offset)
    ensures OffsetToFloat(o, ToOffset(o, v)) == v
    ensures ToOffset(o, OffsetToFloat(o, off)) == off <==>
      (if o == Horizontal then off.y == 0.0 else off.x == 0.0)
  {
  }

  /** What the connection reports to the sheet while handling one event. */
  datatype ScrollCall =
    | Dragging(isDragging: bool)    // the onDragging callback
    | DispatchRawDelta(delta: real) // the swipeable state's dispatchRawDelta
    | OnFling(velocity: real)       // the onFling callback

  /** The calls made while handling one event, and what the event returns. */
  datatype Reaction<T> = Reaction(calls: seq<ScrollCall>, returned: T)

  /** The decision table of the pre-scroll phase: the sheet takes an upward
      drag, and takes a downward scroll of a non-modal sheet that is not
      fully expanded. */
  predicate SheetTakesPreScroll(delta: real, source: ScrollSource, current: SheetValue, isModal: bool)
  {
    || (delta < 0.0 && source == Drag)
    || (delta > 0.0 && current != FullyExpanded && !isModal)
  }

  /** onPreScroll. `dispatch` is the opaque dispatchRawDelta of the
      swipeable state: it maps a delta to the amount consumed. */
  function PreScroll(s: FlexibleSheetState, o: Orientation, available: Offset, source: ScrollSource,
                     dispatch: real -> real): (r: Reaction<Offset>)
    ensures var delta := OffsetToFloat(o, available);
      var takes := SheetTakesPreScroll(delta, source, s.swipeable.currentValue, s.config.isModal);
      && r.calls == (if takes then [Dragging(true), DispatchRawDelta(delta)] else [Dragging(false)])
      && r.returned == (if takes then ToOffset(o, dispatch(delta)) else ZeroOffset)
  {
    var delta := OffsetToFloat(o, available);
    if delta < 0.0 && source == Drag then
      Reaction([Dragging(true), DispatchRawDelta(delta)], ToOffset(o, dispatch(delta)))
    else if delta > 0.0 && source == Fling &&
            s.swipeable.currentValue == FullyExpanded && !s.config.isModal then
      Reaction([Dragging(false)], ZeroOffset)
    else if delta > 0.0 && s.swipeable.currentValue != FullyExpanded && !s.config.isModal then
      Reaction([Dragging(true), DispatchRawDelta(delta)], ToOffset(o, dispatch(delta)))
    else
      Reaction([Dragging(false)], ZeroOffset)
  }

  /** onPostScroll: leftover drag is always forwarded (and reported as a
      drag); other leftover scroll is forwarded, without a drag report, while
      a non-modal sheet is visible; otherwise nothing is taken. */
  function PostScroll(s: FlexibleSheetState, o: Orientation, available: Offset, source: ScrollSource,
                      dispatch: real -> real): (r: Reaction<Offset>)
    ensures var delta := OffsetToFloat(o, available);
      var forwards := source == Drag || (IsVisible(s) && !s.config.isModal);
      && r.calls == (if source == Drag then [Dragging(true), DispatchRawDelta(delta)]
                     else if forwards then [DispatchRawDelta(delta)]
                     else [Dragging(false)])
      && r.returned == (if forwards then ToOffset(o, dispatch(delta)) else ZeroOffset)
  {
    var delta := OffsetToFloat(o, available);
    if source == Drag then
      Reaction([Dragging(true), DispatchRawDelta(delta)], ToOffset(o, dispatch(delta)))
    else if s.swipeable.currentValue != Hidden && !s.config.isModal then
      Reaction([DispatchRawDelta(delta)], ToOffset(o, dispatch(delta)))
    else
      Reaction([Dragging(false)], ZeroOffset)
  }

  /** onPreFling: reads the offset first (failing before the first layout,
      whatever the velocity); an upward fling of a sheet above its minimum
      offset is handed to onFling and consumed entirely, anything else is
      left alone. */
  function PreFling(s: FlexibleSheetState, o: Orientation, available: Velocity): (r: Result<Reaction<Velocity>, SheetError>)
    ensures r.Failure? <==> s.swipeable.offset.None?
    ensures r.Failure? ==> r.error == OffsetNotInitialized
    ensures r.Success? ==>
      var toFling := VelocityToFloat(o, available);
      var takes := toFling < 0.0 && s.swipeable.offset.value > s.swipeable.minOffset;
      && (takes ==> r.value == Reaction([OnFling(toFling)], available))
      && (!takes ==> r.value == Reaction([], ZeroVelocity))
  {
    var toFling := VelocityToFloat(o, available);
    match RequireOffset(s)
    case Failure(e) => Failure(e)
    case Success(currentOffset) =>
      if toFling < 0.0 && currentOffset > s.swipeable.minOffset then
        Success(Reaction([OnFling(toFling)], available))
      else
        Success(Reaction([], ZeroVelocity))
  }

  /** onPostFling: always ends the drag, hands the residual velocity to
      onFling, and reports all of it consumed. */
  function PostFling(o: Orientation, available: Velocity): (r: Reaction<Velocity>)
    ensures r.returned == available
    ensures r.calls == [Dragging(false), OnFling(VelocityToFloat(o, available))]
  {
    Reaction([Dragging(false), OnFling(VelocityToFloat(o, available))], available)
  }

  /** The connection the material sheet installs: the consuming one when
      nested scrolling is allowed, the empty one otherwise. */
  datatype Connection = ConsumeWithinBounds | EmptyConnection

  function ConnectionFor(config: SheetConfig): (r: Connection)
    ensures r == ConsumeWithinBounds <==> config.allowNestedScroll
  {
    if config.allowNestedScroll then ConsumeWithinBounds else EmptyConnection
  }

  /** Pre-fling through either connection; the empty one takes nothing. */
  function ConnectionPreFling(c: Connection, s: FlexibleSheetState, o: Orientation, available: Velocity): (r: Result<Reaction<Velocity>, SheetError>)
    ensures c == EmptyConnection ==> r == Success(Reaction([], ZeroVelocity))
    ensures c == ConsumeWithinBounds ==> r == PreFling(s, o, available)
  {
    match c
    case ConsumeWithinBounds => PreFling(s, o, available)
    case EmptyConnection => Success(Reaction([], ZeroVelocity))
  }

  /** Post-fling through either connection; the empty one takes nothing. */
  function ConnectionPostFling(c: Connection, o: Orientation, available: Velocity): (r: Reaction<Velocity>)
    ensures c == EmptyConnection ==> r == Reaction([], ZeroVelocity)
    ensures c == ConsumeWithinBounds ==> r == PostFling(o, available)
  {
    match c
    case ConsumeWithinBounds => PostFling(o, available)
    case EmptyConnection => Reaction([], ZeroVelocity)
  }

  /** The fling branch of the pre-scroll chain (a downward fling of a fully
      expanded non-modal sheet) changes nothing: the chain behaves as the
      two-row decision table, and a downward fling of a fully expanded sheet
      is never taken. */
  lemma PreScrollFlingBranchRedundant(s: FlexibleSheetState, o: Orientation, available: Offset,
                                      dispatch: real -> real)
    requires OffsetToFloat(o, available) > 0.0 && s.swipeable.currentValue == FullyExpanded
    ensures PreScroll(s, o, available, Fling, dispatch) == Reaction([Dragging(false)], ZeroOffset)
    ensures PreScroll(s, o, available, Drag, dispatch) == Reaction([Dragging(false)], ZeroOffset)
  {
  }

  /** A modal sheet takes a pre-scroll only from an upward drag. */
  lemma ModalPreScrollTakesOnlyUpwardDrags(s: FlexibleSheetState, o: Orientation, available: Offset,
                                           source: ScrollSource, dispatch: real -> real)
    requires s.config.isModal
    ensures DispatchRawDelta(OffsetToFloat(o, available)) in PreScroll(s, o, available, source, dispatch).calls <==>
      OffsetToFloat(o, available) < 0.0 && source == Drag
  {
  }

  /** Between its two phases the sheet receives every drag and, while a
      non-modal sheet is visible, every scroll: a scroll event reaches
      dispatchRawDelta in the pre-scroll or the post-scroll phase exactly
      when it is a drag, or the sheet is non-modal and either visible or
      scrolled downwards. A modal sheet never takes a fling's scroll. */
  lemma ScrollReachesSheet(s: FlexibleSheetState, o: Orientation, preAvailable: Offset, postAvailable: Offset,
                           source: ScrollSource, dispatch: real -> real)
    ensures var preDelta := OffsetToFloat(o, preAvailable);
      DispatchRawDelta(preDelta) in PreScroll(s, o, preAvailable, source, dispatch).calls ||
      DispatchRawDelta(OffsetToFloat(o, postAvailable)) in PostScroll(s, o, postAvailable, source, dispatch).calls
      <==>
      source == Drag || (!s.config.isModal && (IsVisible(s) || preDelta > 0.0))
  {
  }

  /** A pre-fling takes all of the velocity or none of it, and it takes it
      exactly when it hands a non-zero velocity to onFling. */
  lemma PreFlingAllOrNothing(s: FlexibleSheetState, o: Orientation, available: Velocity)
    requires s.swipeable.offset.Some?
    ensures var r := PreFling(s, o, available).value;
      && (r.returned == available || r.returned == ZeroVelocity)
      && (OnFling(VelocityToFloat(o, available)) in r.calls <==>
            r.returned == available && VelocityToFloat(o, available) != 0.0)
  {
  }

  /** Through the consuming connection every fling reaches onFling: in the
      pre-fling phase when it is upward and the sheet can still move up,
      and otherwise in the post-fling phase. The empty connection never
      calls it. */
  lemma FlingReachesSheet(c: Connection, s: FlexibleSheetState, o: Orientation,
                          preAvailable: Velocity, postAvailable: Velocity)
    requires s.swipeable.offset.Some?
    ensures var pre := ConnectionPreFling(c, s, o, preAvailable).value;
      var post := ConnectionPostFling(c, o, postAvailable);
      && (c == ConsumeWithinBounds ==>
            OnFling(VelocityToFloat(o, postAvailable)) in post.calls &&
            (OnFling(VelocityToFloat(o, preAvailable)) in pre.calls <==>
               VelocityToFloat(o, preAvailable) < 0.0 && s.swipeable.offset.value > s.swipeable.minOffset))
      && (c == EmptyConnection ==> pre.calls == [] && post.calls == [])
  {
  }

  /** The sheet's allowNestedScroll flag decides whether flings reach it:
      with the flag clear, the installed connection never calls onFling or
      onDragging; with it set, every post-fling reaches onFling. */
  lemma NestedScrollFlagDecidesFling(s: FlexibleSheetState, o: Orientation,
                                     preAvailable: Velocity, postAvailable: Velocity)
    requires s.swipeable.offset.Some?
    ensures var pre := ConnectionPreFling(ConnectionFor(s.config), s, o, preAvailable).value;
      var post := ConnectionPostFling(ConnectionFor(s.config), o, postAvailable);
      && (!s.config.allowNestedScroll ==> pre.calls == [] && post.calls == [])
      && (s.config.allowNestedScroll ==> OnFling(VelocityToFloat(o, postAvailable)) in post.calls)
  {
    FlingReachesSheet(ConnectionFor(s.config), s, o, preAvailable, postAvailable);
  }
}

=== FILE: SheetSizes.dfy ===
/** The sheet-size configuration: for each visible detent, the fraction of
    the screen height the sheet occupies there. */
module SheetSizes {
  import opened SheetValues

  /** Fractions of the maximum screen height for the three visible detents.
      The source annotates each with a [0, 1] range but does not check it. */
  datatype SheetSize = SheetSize(
    fullyExpanded: real,
    intermediatelyExpanded: real,
    slightlyExpanded: real)

  /** The defaults of the configuration record: 1.0, 0.5 and 0.25. */
  const DefaultSheetSize: SheetSize := SheetSize(1.0, 0.5, 0.25)

  predicate InUnitRange(f: real)
  {
    0.0 <= f <= 1.0
  }

  /** Every fraction lies in [0, 1], as the annotations ask. */
  predicate ValidSheetSize(s: SheetSize)
  {
    InUnitRange(s.fullyExpanded) && InUnitRange(s.intermediatelyExpanded) && InUnitRange(s.slightlyExpanded)
  }

  /** The fractions shrink from Fully to Intermediately to Slightly expanded;
      the configuration does not enforce this. */
  predicate DecreasingFractions(s: SheetSize)
  {
    s.fullyExpanded >= s.intermediatelyExpanded >= s.slightlyExpanded
  }

  /** The configured fraction of a visible detent. */
  function Fraction(s: SheetSize, v: SheetValue): real
    requires v != Hidden
  {
    match v
    case FullyExpanded => s.fullyExpanded
    case IntermediatelyExpanded => s.intermediatelyExpanded
    case SlightlyExpanded => s.slightlyExpanded
  }

  /** The default configuration is in range and ordered, and the fraction
      grows with the expansion rank of the detent. */
  lemma DefaultSheetSizeWellFormed()
    ensures ValidSheetSize(DefaultSheetSize) && DecreasingFractions(DefaultSheetSize)
    ensures forall u: SheetValue, w: SheetValue :: u != Hidden && w != Hidden && ExpansionRank(u) < ExpansionRank(w) ==>
      Fraction(DefaultSheetSize, u) < Fraction(DefaultSheetSize, w)
  {
  }
}

=== FILE: SheetState.dfy ===
/** The sheet-state wrapper: its construction checks, its queries, the
    commands that ask the underlying swipeable state to animate, and the
    saver that carries the current value across recreation. */
module SheetState {
  import opened Wrappers
  import opened SheetValues
  import opened SheetSizes
  import Swipeable

  /** The configuration a sheet state is built with. The animation spec is
      not modelled. */
  datatype SheetConfig = SheetConfig(
    skipIntermediatelyExpanded: bool,
    skipSlightlyExpanded: bool,
    sheetSize: SheetSize,
    containSystemBars: bool,
    allowNestedScroll: bool,
    isModal: bool,
    skipHiddenState: bool)

  /** The fields of the underlying swipeable state that the sheet reads.
      Its animation, settling and offset clamping are outside the model. */
  datatype SwipeableState = SwipeableState(
    currentValue: SheetValue,
    targetValue: SheetValue,
    anchors: Anchors,
    isAnimationRunning: bool,
    lastVelocity: real,
    minOffset: real,
    offset: Option<real>)   // None until the first layout pass

  datatype FlexibleSheetState = FlexibleSheetState(config: SheetConfig, swipeable: SwipeableState)

  /** The exceptions the wrapper raises. */
  datatype SheetError =
    | InitialIntermediateSkipped  // `require` in the constructor
    | InitialHiddenSkipped        // `require` in the constructor
    | IntermediateSkipped         // `check` in intermediatelyExpand
    | SlightSkipped               // `check` in slightlyExpand
    | HiddenSkipped               // `check` in hide
    | OffsetNotInitialized        // requireOffset before the first layout

  /** A fresh swipeable state resting at `v` with no anchors and no offset.
      Its velocity and minimum offset start at 0.0 here only to give the
      record a value; no contract depends on them. */
  function InitialSwipeable(v: SheetValue): SwipeableState
  {
    SwipeableState(v, v, map[], false, 0.0, 0.0, None)
  }

  /** The constructor: it refuses an initial IntermediatelyExpanded when that
      detent is skipped, and an initial Hidden when the hidden state is
      skipped. Nothing is checked for the slightly expanded flag. */
  function Create(config: SheetConfig, initialValue: SheetValue): (r: Result<FlexibleSheetState, SheetError>)
    ensures r.Success? <==>
      !(config.skipIntermediatelyExpanded && initialValue == IntermediatelyExpanded) &&
      !(config.skipHiddenState && initialValue == Hidden)
    ensures initialValue == SlightlyExpanded || initialValue == FullyExpanded ==> r.Success?
    ensures r.Failure? ==>
      r.error == (if initialValue == Hidden then InitialHiddenSkipped else InitialIntermediateSkipped)
    ensures r.Success? ==>
      && r.value.config == config
      && r.value.swipeable.currentValue == initialValue
      && r.value.swipeable.targetValue == initialValue
      && r.value.swipeable.anchors == map[]
      && r.value.swipeable.offset.None?
  {
    if config.skipIntermediatelyExpanded && initialValue == IntermediatelyExpanded then
      Failure(InitialIntermediateSkipped)
    else if config.skipHiddenState && initialValue == Hidden then
      Failure(InitialHiddenSkipped)
    else
      Success(FlexibleSheetState(config, InitialSwipeable(initialValue)))
  }

  /** The sheet is visible unless its current value is Hidden. */
  predicate IsVisible(s: FlexibleSheetState)
  {
    s.swipeable.currentValue != Hidden
  }

  predicate HasAnchorForValue(s: FlexibleSheetState, v: SheetValue)
  {
    v in s.swipeable.anchors
  }

  predicate HasFullyExpandedState(s: FlexibleSheetState)
  {
    HasAnchorForValue(s, FullyExpanded)
  }

  predicate HasIntermediatelyExpandedState(s: FlexibleSheetState)
  {
    HasAnchorForValue(s, IntermediatelyExpanded)
  }

  predicate HasSlightlyExpandedState(s: FlexibleSheetState)
  {
    HasAnchorForValue(s, SlightlyExpanded)
  }

  /** The current offset, or the error raised before the first layout. */
  function RequireOffset(s: FlexibleSheetState): (r: Result<real, SheetError>)
    ensures r.Success? <==> s.swipeable.offset.Some?
    ensures r.Success? ==> r.value == s.swipeable.offset.value
    ensures r.Failure? ==> r.error == OffsetNotInitialized
  {
    match s.swipeable.offset
    case Some(o) => Success(o)
    case None => Failure(OffsetNotInitialized)
  }

  /** The inputs the swipeable modifier passes to the anchor calculation for
      this sheet under the given layout. */
  function AnchorInputsFor(config: SheetConfig, layout: Swipeable.Layout): Swipeable.AnchorInputs
  {
    Swipeable.AnchorInputs(layout, config.sheetSize, config.isModal,
      config.skipIntermediatelyExpanded, config.skipSlightlyExpanded)
  }

  /** The sheet's anchors are the ones the modifier built for its config. */
  ghost predicate AnchorsBuiltFrom(s: FlexibleSheetState, layout: Swipeable.Layout)
  {
    s.swipeable.anchors == Swipeable.BuildAnchors(AnchorInputsFor(s.config, layout))
  }

  /** A skipped detent has no anchor. */
  ghost predicate RespectsSkipFlags(s: FlexibleSheetState)
  {
    && (HasIntermediatelyExpandedState(s) ==> !s.config.skipIntermediatelyExpanded)
    && (HasSlightlyExpandedState(s) ==> !s.config.skipSlightlyExpanded)
  }

  /** One call to the swipeable state's suspending `animateTo`, at the state's
      last velocity with the configured animation spec. */
  datatype SwipeCall = AnimateTo(target: SheetValue)

  /** Every call in the trace animates to `v`. */
  ghost predicate AllAnimateTo(calls: seq<SwipeCall>, v: SheetValue)
  {
    forall i :: 0 <= i < |calls| ==> calls[i].target == v
  }

  /** The number of animateTo calls a detent command makes: two when
      non-modal, one when modal. */
  function CallsPerCommand(config: SheetConfig): nat
  {
    if config.isModal then 1 else 2
  }

  /** The calls a detent command makes: the same animateTo twice in a row
      when non-modal, once when modal. */
  function AnimateToDetent(s: FlexibleSheetState, v: SheetValue): (r: seq<SwipeCall>)
    ensures |r| == CallsPerCommand(s.config) && AllAnimateTo(r, v)
  {
    if s.config.isModal then [AnimateTo(v)] else [AnimateTo(v), AnimateTo(v)]
  }

  /** fullyExpand: always allowed. */
  function FullyExpand(s: FlexibleSheetState): (r: seq<SwipeCall>)
    ensures |r| == CallsPerCommand(s.config) && AllAnimateTo(r, FullyExpanded)
  {
    AnimateToDetent(s, FullyExpanded)
  }

  /** intermediatelyExpand: its check fails, before any animation is asked
      for, exactly when the intermediate detent is skipped. */
  function IntermediatelyExpand(s: FlexibleSheetState): (r: Result<seq<SwipeCall>, SheetError>)
    ensures r.Failure? <==> s.config.skipIntermediatelyExpanded
    ensures r.Failure? ==> r.error == IntermediateSkipped
    ensures r.Success? ==> |r.value| == CallsPerCommand(s.config) && AllAnimateTo(r.value, IntermediatelyExpanded)
  {
    if s.config.skipIntermediatelyExpanded then Failure(IntermediateSkipped)
    else Success(AnimateToDetent(s, IntermediatelyExpanded))
  }

  /** slightlyExpand: its check fails exactly when the slight detent is
      skipped. */
  function SlightlyExpand(s: FlexibleSheetState): (r: Result<seq<SwipeCall>, SheetError>)
    ensures r.Failure? <==> s.config.skipSlightlyExpanded
    ensures r.Failure? ==> r.error == SlightSkipped
    ensures r.Success? ==> |r.value| == CallsPerCommand(s.config) && AllAnimateTo(r.value, SlightlyExpanded)
  {
    if s.config.skipSlightlyExpanded then Failure(SlightSkipped)
    else Success(AnimateToDetent(s, SlightlyExpanded))
  }

  /** hide: its check fails exactly when the hidden state is skipped;
      otherwise one animation to Hidden, modal or not. */
  function Hide(s: FlexibleSheetState): (r: Result<seq<SwipeCall>, SheetError>)
    ensures r.Failure? <==> s.config.skipHiddenState
    ensures r.Failure? ==> r.error == HiddenSkipped
    ensures r.Success? ==> r.value == [AnimateTo(Hidden)]
  {
    if s.config.skipHiddenState then Failure(HiddenSkipped)
    else Success([AnimateTo(Hidden)])
  }

  /** The target `show` picks: IntermediatelyExpanded if anchored, else
      SlightlyExpanded if anchored, else FullyExpanded. Never Hidden. */
  function DefaultShowTarget(anchors: Anchors): (r: SheetValue)
    ensures r != Hidden
    ensures r == IntermediatelyExpanded <==> IntermediatelyExpanded in anchors
    ensures r == SlightlyExpanded <==> IntermediatelyExpanded !in anchors && SlightlyExpanded in anchors
    ensures r == FullyExpanded <==> IntermediatelyExpanded !in anchors && SlightlyExpanded !in anchors
  {
    if IntermediatelyExpanded in anchors then IntermediatelyExpanded
    else if SlightlyExpanded in anchors then SlightlyExpanded
    else FullyExpanded
  }

  /** show(target). Non-modal: a first animation to the default target, then
      a second one to the explicit target or, without one, to the default
      recomputed from the anchors present once the first has finished
      (`anchorsAfterFirst`). Modal: one animation to the default target;
      the explicit target is ignored. */
  function Show(s: FlexibleSheetState, target: Option<SheetValue>, anchorsAfterFirst: Anchors): (r: seq<SwipeCall>)
    ensures |r| == CallsPerCommand(s.config)
    ensures r[0] == AnimateTo(DefaultShowTarget(s.swipeable.anchors))
    ensures !s.config.isModal ==>
      r[1] == AnimateTo(if target.Some? then target.value else DefaultShowTarget(anchorsAfterFirst))
  {
    var first := DefaultShowTarget(s.swipeable.anchors);
    if !s.config.isModal then
      [AnimateTo(first), AnimateTo(target.GetOr(DefaultShowTarget(anchorsAfterFirst)))]
    else
      [AnimateTo(first)]
  }

  /** Without an explicit target, show never animates to Hidden; in modal
      mode the explicit target makes no difference at all. */
  lemma ShowTargets(s: FlexibleSheetState, target: Option<SheetValue>, anchorsAfterFirst: Anchors)
    ensures target.None? ==>
      forall i :: 0 <= i < |Show(s, target, anchorsAfterFirst)| ==> Show(s, target, anchorsAfterFirst)[i].target != Hidden
    ensures s.config.isModal ==> Show(s, target, anchorsAfterFirst) == Show(s, None, anchorsAfterFirst)
    ensures !s.config.isModal && target.Some? ==> Show(s, target, anchorsAfterFirst)[1].target == target.value
  {
  }

  /** Whenever any visible detent is anchored, show's default agrees with
      the anchor-change handler's fallback for a sheet that was not heading
      for Hidden. */
  lemma ShowAgreesWithFallback(previousTarget: SheetValue, anchors: Anchors)
    requires previousTarget != Hidden
    requires FullyExpanded in anchors || IntermediatelyExpanded in anchors || SlightlyExpanded in anchors
    ensures DefaultShowTarget(anchors) == Swipeable.FallbackTarget(previousTarget, anchors)
  {
  }

  /** With anchors built by the modifier, a skipped detent is never anchored,
      and FullyExpanded is anchored exactly when the content was measured
      non-empty. */
  lemma BuiltAnchorsRespectSkipFlags(s: FlexibleSheetState, layout: Swipeable.Layout)
    requires AnchorsBuiltFrom(s, layout)
    ensures RespectsSkipFlags(s)
    ensures HasFullyExpandedState(s) <==> layout.measuredHeight != 0
  {
    var inputs := AnchorInputsFor(s.config, layout);
    Swipeable.DetentPresence(IntermediatelyExpanded, inputs);
    Swipeable.DetentPresence(SlightlyExpanded, inputs);
    Swipeable.FullyExpandedAnchor(inputs);
  }

  /** A skip flag removes reachability: with the intermediate detent skipped
      the sheet never reports it and intermediatelyExpand always fails; the
      same for the slight detent. */
  lemma SkipFlagRemovesDetent(s: FlexibleSheetState, layout: Swipeable.Layout)
    requires AnchorsBuiltFrom(s, layout)
    ensures s.config.skipIntermediatelyExpanded ==>
      !HasIntermediatelyExpandedState(s) && IntermediatelyExpand(s).Failure?
    ensures s.config.skipSlightlyExpanded ==>
      !HasSlightlyExpandedState(s) && SlightlyExpand(s).Failure?
  {
    BuiltAnchorsRespectSkipFlags(s, layout);
  }

  /** The parameters the saver is created with: the configuration without
      the hidden-state flag, which the saver does not take. */
  datatype SaverParams = SaverParams(
    skipIntermediatelyExpanded: bool,
    skipSlightlyExpanded: bool,
    sheetSize: SheetSize,
    containSystemBars: bool,
    allowNestedScroll: bool,
    isModal: bool)

  function SaverParamsOf(c: SheetConfig): SaverParams
  {
    SaverParams(c.skipIntermediatelyExpanded, c.skipSlightlyExpanded, c.sheetSize,
      c.containSystemBars, c.allowNestedScroll, c.isModal)
  }

  /** The saver stores the current value only. */
  function Save(s: FlexibleSheetState): SheetValue
  {
    s.swipeable.currentValue
  }

  /** The saver rebuilds the state from its parameters and the saved value;
      the hidden-state flag takes its default, false. */
  function Restore(p: SaverParams, saved: SheetValue): (r: Result<FlexibleSheetState, SheetError>)
    ensures r.Success? ==> SaverParamsOf(r.value.config) == p && !r.value.config.skipHiddenState
  {
    Create(SheetConfig(p.skipIntermediatelyExpanded, p.skipSlightlyExpanded, p.sheetSize,
      p.containSystemBars, p.allowNestedScroll, p.isModal, false), saved)
  }

  /** Save then restore brings back the current value as both current and
      target value, with the saver's configuration and no anchors yet. It
      fails only for a sheet resting at a skipped intermediate detent. */
  lemma SaverRoundTrip(s: FlexibleSheetState)
    ensures var r := Restore(SaverParamsOf(s.config), Save(s));
      && (r.Success? <==> !(s.config.skipIntermediatelyExpanded && s.swipeable.currentValue == IntermediatelyExpanded))
      && (r.Success? ==>
            && r.value.swipeable.currentValue == s.swipeable.currentValue
            && r.value.swipeable.targetValue == s.swipeable.currentValue
            && r.value.config == s.config.(skipHiddenState := false)
            && r.value.swipeable.anchors == map[])
  {
  }

  /** A state the constructor accepted survives a save and restore made
      right away. */
  lemma CreatedStateRestores(config: SheetConfig, initialValue: SheetValue)
    requires Create(config, initialValue).Success?
    ensures Restore(SaverParamsOf(config), Save(Create(config, initialValue).value)).Success?
  {
  }
}

=== FILE: SheetValues.dfy ===
/** The four detents of a flexible bottom sheet and the anchor map that
    assigns a pixel offset to each detent that is currently reachable. */
module SheetValues {

  /** Rest positions of the sheet, in the declaration order of the enum. */
  datatype SheetValue = Hidden | FullyExpanded | IntermediatelyExpanded | SlightlyExpanded

  /** Every value of the enum; also the `possibleValues` the sheet registers. */
  const AllValues: set<SheetValue> :=
    {Hidden, FullyExpanded, IntermediatelyExpanded, SlightlyExpanded}

  /** Pixel offset (distance from the top of the travel range) per reachable
      detent. A detent that cannot be reached is not a key: absent, not zero. */
  type Anchors = map<SheetValue, real>

  /** Position of a detent in expansion order:
      Hidden < SlightlyExpanded < IntermediatelyExpanded < FullyExpanded. */
  function ExpansionRank(v: SheetValue): nat
  {
    match v
    case Hidden => 0
    case SlightlyExpanded => 1
    case IntermediatelyExpanded => 2
    case FullyExpanded => 3
  }

  /** The present anchors agree with expansion order: a more expanded detent
      never rests lower on the screen than a less expanded one. */
  ghost predicate OrderedByExpansion(a: Anchors)
  {
    forall u, w :: u in a && w in a && ExpansionRank(u) <= ExpansionRank(w) ==> a[w] <= a[u]
  }

  /** An anchor map has four entries exactly when every detent has an anchor. */
  lemma FourEntriesIffComplete(a: Anchors)
    ensures |a| == 4 <==> forall v: SheetValue :: v in a
  {
    assert |AllValues| == 4;
    assert a.Keys <= AllValues by {
      forall v | v in a.Keys ensures v in AllValues {
        assert v.Hidden? || v.FullyExpanded? || v.IntermediatelyExpanded? || v.SlightlyExpanded?;
      }
    }
    if forall v: SheetValue :: v in a {
      assert a.Keys == AllValues;
    } else {
      var missing: SheetValue :| missing !in a;
      var rest := AllValues - {missing};
      assert a.Keys <= rest;
      match missing {
        case Hidden => assert rest == {FullyExpanded, IntermediatelyExpanded, SlightlyExpanded};
        case FullyExpanded => assert rest == {Hidden, IntermediatelyExpanded, SlightlyExpanded};
        case IntermediatelyExpanded => assert rest == {Hidden, FullyExpanded, SlightlyExpanded};
        case SlightlyExpanded => assert rest == {Hidden, FullyExpanded, IntermediatelyExpanded};
      }
      SubsetCardinality(a.Keys, rest);
    }
  }

  /** A subset is no larger than its superset. */
  lemma {:induction false} SubsetCardinality<T>(small: set<T>, big: set<T>)
    requires small <= big
    ensures |small| <= |big|
    decreases big
  {
    if small != {} {
      var x :| x in small;
      SubsetCardinality(small - {x}, big - {x});
    }
  }
}

=== FILE: Swipeable.dfy ===
/** The detent logic of the swipeable sheet modifier: the per-detent anchor
    calculation, the anchor map it yields, and the handler that re-targets
    the sheet when the anchor map changes. */
module Swipeable {
  import opened Wrappers
  import opened SheetValues
  import opened SheetSizes

  /** What the anchor calculation reads from layout, in pixels. */
  datatype Layout = Layout(
    measuredHeight: nat,          // measured height of the sheet content
    screenMaxHeight: real,        // maximum screen height
    sheetConstraintHeight: real,  // maximum height of the sheet container
    sheetFullHeight: real,        // height of the fully expanded sheet
    screenFully: real,            // screenMaxHeight * fullyExpanded, the Float product
    screenIntermediate: real,     // screenMaxHeight * intermediatelyExpanded, the Float product
    screenSlight: real,           // screenMaxHeight * slightlyExpanded, the Float product
    roundedIntermediate: nat,     // screenMaxHeight * intermediatelyExpanded, rounded to an integer
    roundedSlight: nat)           // screenMaxHeight * slightlyExpanded, rounded to an integer

  /** Everything the anchor calculation depends on: the layout, the size
      configuration and the flags of the sheet state. */
  datatype AnchorInputs = AnchorInputs(
    layout: Layout,
    size: SheetSize,
    isModal: bool,
    skipIntermediatelyExpanded: bool,
    skipSlightlyExpanded: bool)

  /** The screen shares are the exact products of the screen height and the
      configured fractions. */
  predicate ExactShares(inputs: AnchorInputs)
  {
    var l := inputs.layout;
    && l.screenFully == l.screenMaxHeight * inputs.size.fullyExpanded
    && l.screenIntermediate == l.screenMaxHeight * inputs.size.intermediatelyExpanded
    && l.screenSlight == l.screenMaxHeight * inputs.size.slightlyExpanded
  }

  /** `max(0f, x)`. */
  function Max0(x: real): (r: real)
    ensures r >= 0.0 && r >= x
    ensures r == 0.0 || r == x
  {
    if 0.0 >= x then 0.0 else x
  }

  /** Whether a skip flag removes the detent. */
  predicate Skipped(v: SheetValue, inputs: AnchorInputs)
  {
    || (v == IntermediatelyExpanded && inputs.skipIntermediatelyExpanded)
    || (v == SlightlyExpanded && inputs.skipSlightlyExpanded)
  }

  /** The content height a partial detent needs before it gets an anchor:
      its share of the screen when modal, that share rounded otherwise. */
  function Threshold(v: SheetValue, inputs: AnchorInputs): real
    requires v == IntermediatelyExpanded || v == SlightlyExpanded
  {
    var l := inputs.layout;
    if inputs.isModal then (if v == IntermediatelyExpanded then l.screenIntermediate else l.screenSlight)
    else if v == IntermediatelyExpanded then l.roundedIntermediate as real
    else l.roundedSlight as real
  }

  /** The `when` chain both modes use for a partial detent: no anchor for
      content shorter than the threshold, none when the detent is skipped,
      and otherwise the threshold measured up from `base`. */
  function PartialDetentAnchor(height: real, threshold: real, skipped: bool, base: real): (r: Option<real>)
    ensures r.Some? <==> height >= threshold && !skipped
    ensures r.Some? ==> r.value + threshold == base
  {
    if height < threshold then None
    else if skipped then None
    else Some(base - threshold)
  }

  /** The anchor lambda of the swipeable modifier: the pixel offset of
      detent `v`, or None when the detent gets no anchor. A partial detent
      is measured up from the screen height when modal and from the full
      sheet height otherwise. */
  function CalculateAnchor(v: SheetValue, inputs: AnchorInputs): (r: Option<real>)
    ensures v == Hidden ==> r.Some?
    ensures v == FullyExpanded ==> (r.Some? <==> inputs.layout.measuredHeight != 0)
    ensures v == FullyExpanded && r.Some? ==> r.value >= 0.0
    ensures Skipped(v, inputs) ==> r.None?
  {
    var l := inputs.layout;
    var h := l.measuredHeight;
    if inputs.isModal then
      match v
      case Hidden => Some(l.sheetConstraintHeight - 0.0)
      case FullyExpanded =>
        if h != 0 then Some(Max0(l.screenMaxHeight - l.screenFully))
        else None
      case IntermediatelyExpanded | SlightlyExpanded =>
        PartialDetentAnchor(h as real, Threshold(v, inputs), Skipped(v, inputs), l.screenMaxHeight)
    else
      match v
      case Hidden => Some(l.sheetFullHeight)
      case FullyExpanded =>
        if h != 0 then Some(Max0(l.sheetFullHeight - h as real)) else None
      case IntermediatelyExpanded | SlightlyExpanded =>
        PartialDetentAnchor(h as real, Threshold(v, inputs), Skipped(v, inputs), l.sheetFullHeight)
  }

  /** The anchor map: every possible value whose anchor is not null, mapped
      to that anchor. Hidden is always among them. */
  function BuildAnchors(inputs: AnchorInputs): (a: Anchors)
    ensures forall v: SheetValue :: v in a <==> CalculateAnchor(v, inputs).Some?
    ensures forall v: SheetValue :: v in a ==> a[v] == CalculateAnchor(v, inputs).value
    ensures Hidden in a
  {
    map v | v in AllValues && CalculateAnchor(v, inputs).Some? :: CalculateAnchor(v, inputs).value
  }

  /** Hidden always has an anchor: the container's constraint height when
      modal, the full sheet height otherwise. */
  lemma HiddenAlwaysAnchored(inputs: AnchorInputs)
    ensures Hidden in BuildAnchors(inputs)
    ensures BuildAnchors(inputs)[Hidden] ==
      if inputs.isModal then inputs.layout.sheetConstraintHeight else inputs.layout.sheetFullHeight
  {
  }

  /** FullyExpanded has an anchor exactly when the content has a non-zero
      measured height, and that anchor is never negative. */
  lemma FullyExpandedAnchor(inputs: AnchorInputs)
    ensures FullyExpanded in BuildAnchors(inputs) <==> inputs.layout.measuredHeight != 0
    ensures FullyExpanded in BuildAnchors(inputs) ==> BuildAnchors(inputs)[FullyExpanded] >= 0.0
    ensures var a := BuildAnchors(inputs); var l := inputs.layout;
      FullyExpanded in a && !inputs.isModal ==>
        a[FullyExpanded] ==
          if l.measuredHeight as real <= l.sheetFullHeight then l.sheetFullHeight - l.measuredHeight as real else 0.0
    ensures var a := BuildAnchors(inputs); var l := inputs.layout;
      FullyExpanded in a && inputs.isModal ==>
        a[FullyExpanded] == if l.screenFully <= l.screenMaxHeight then l.screenMaxHeight - l.screenFully else 0.0
  {
  }

  /** A partial detent has an anchor exactly when its skip flag is clear and
      the content is at least as tall as the detent's threshold; so a skip
      flag removes the detent whatever the content size, and content shorter
      than the threshold never stops at it. */
  lemma DetentPresence(v: SheetValue, inputs: AnchorInputs)
    requires v == IntermediatelyExpanded || v == SlightlyExpanded
    ensures v in BuildAnchors(inputs) <==>
      !Skipped(v, inputs) && inputs.layout.measuredHeight as real >= Threshold(v, inputs)
  {
  }

  /** Modal: a present partial anchor is the screen height minus the
      detent's screen share, so the content's own height never moves it. */
  lemma ModalDetentOffset(v: SheetValue, inputs: AnchorInputs)
    requires inputs.isModal
    requires v == IntermediatelyExpanded || v == SlightlyExpanded
    requires v in BuildAnchors(inputs)
    ensures BuildAnchors(inputs)[v] == inputs.layout.screenMaxHeight - Threshold(v, inputs)
    ensures BuildAnchors(inputs)[v] == inputs.layout.screenMaxHeight -
      (if v == IntermediatelyExpanded then inputs.layout.screenIntermediate else inputs.layout.screenSlight)
  {
  }

  /** Non-modal: a present partial anchor is the full height minus the
      detent's rounded size; it lies no lower than Hidden, and no higher than
      FullyExpanded once the rounded size fits in the full height. */
  lemma NonModalDetentOffset(v: SheetValue, inputs: AnchorInputs)
    requires !inputs.isModal
    requires v == IntermediatelyExpanded || v == SlightlyExpanded
    requires v in BuildAnchors(inputs)
    ensures var a := BuildAnchors(inputs);
      var expected := if v == IntermediatelyExpanded then inputs.layout.roundedIntermediate
                      else inputs.layout.roundedSlight;
      && a[v] == inputs.layout.sheetFullHeight - expected as real
      && a[v] <= a[Hidden]
      && (FullyExpanded in a && expected as real <= inputs.layout.sheetFullHeight ==> a[FullyExpanded] <= a[v])
  {
  }

  /** `x * a` grows with `a` when `x` is not negative. */
  lemma ScaleMonotone(x: real, a: real, b: real)
    requires x >= 0.0 && a >= b
    ensures x * a >= x * b
  {
    assert x * a - x * b == x * (a - b);
  }

  /** An anchor map whose present entries take the given offsets is ordered
      by expansion when the offsets are. */
  lemma OrderedFromOffsets(a: Anchors, fully: real, inter: real, slight: real, hidden: real)
    requires FullyExpanded in a ==> a[FullyExpanded] == fully
    requires IntermediatelyExpanded in a ==> a[IntermediatelyExpanded] == inter
    requires SlightlyExpanded in a ==> a[SlightlyExpanded] == slight
    requires Hidden in a ==> a[Hidden] == hidden
    requires fully <= inter <= slight <= hidden
    ensures OrderedByExpansion(a)
  {
  }

  /** The screen shares grow from Slightly to Fully expanded and the
      intermediate one fits on the screen. */
  predicate SharesOrdered(l: Layout)
  {
    0.0 <= l.screenSlight <= l.screenIntermediate <= l.screenFully && l.screenIntermediate <= l.screenMaxHeight
  }

  /** Exact shares of fractions in [0, 1] that shrink from Fully to Slightly
      expanded are ordered and the intermediate one fits on the screen. */
  lemma ExactSharesOrdered(screen: real, fully: real, inter: real, slight: real,
                           shareFully: real, shareInter: real, shareSlight: real)
    requires 0.0 <= screen
    requires 0.0 <= slight <= inter <= fully <= 1.0
    requires shareFully == screen * fully && shareInter == screen * inter && shareSlight == screen * slight
    ensures 0.0 <= shareSlight <= shareInter <= shareFully && shareInter <= screen
  {
    ScaleMonotone(screen, 1.0, inter);
    ScaleMonotone(screen, fully, inter);
    ScaleMonotone(screen, inter, slight);
    ScaleMonotone(screen, slight, 0.0);
  }

  /** Modal, in terms of the screen shares: with ordered shares and a
      container at least as tall as the screen, the present anchors follow
      expansion order. */
  lemma ModalAnchorsOrderedByShares(inputs: AnchorInputs)
    requires inputs.isModal
    requires SharesOrdered(inputs.layout)
    requires inputs.layout.screenMaxHeight <= inputs.layout.sheetConstraintHeight
    ensures OrderedByExpansion(BuildAnchors(inputs))
  {
    var l := inputs.layout;
    var a := BuildAnchors(inputs);
    var inter := l.screenMaxHeight - l.screenIntermediate;
    var slight := l.screenMaxHeight - l.screenSlight;
    assert IntermediatelyExpanded in a ==> a[IntermediatelyExpanded] == inter;
    assert SlightlyExpanded in a ==> a[SlightlyExpanded] == slight;
    OrderedFromOffsets(a, Max0(l.screenMaxHeight - l.screenFully), inter, slight, l.sheetConstraintHeight);
  }

  /** Modal: with exact shares of fractions in [0, 1] that shrink from Fully
      to Slightly, and a container at least as tall as the screen, the
      present anchors follow expansion order. */
  lemma ModalAnchorsOrdered(inputs: AnchorInputs)
    requires inputs.isModal && ExactShares(inputs)
    requires ValidSheetSize(inputs.size) && DecreasingFractions(inputs.size)
    requires 0.0 <= inputs.layout.screenMaxHeight <= inputs.layout.sheetConstraintHeight
    ensures OrderedByExpansion(BuildAnchors(inputs))
  {
    var l := inputs.layout;
    var s := inputs.size;
    ExactSharesOrdered(l.screenMaxHeight, s.fullyExpanded, s.intermediatelyExpanded, s.slightlyExpanded,
                       l.screenFully, l.screenIntermediate, l.screenSlight);
    ModalAnchorsOrderedByShares(inputs);
  }

  /** With the default sizes the fraction hypotheses hold, so a modal sheet
      with exact shares in a container at least as tall as the screen is
      always ordered. */
  lemma DefaultModalAnchorsOrdered(inputs: AnchorInputs)
    requires inputs.isModal && ExactShares(inputs) && inputs.size == DefaultSheetSize
    requires 0.0 <= inputs.layout.screenMaxHeight <= inputs.layout.sheetConstraintHeight
    ensures OrderedByExpansion(BuildAnchors(inputs))
  {
    DefaultSheetSizeWellFormed();
    ModalAnchorsOrdered(inputs);
  }

  /** The container hypothesis is needed: a modal sheet on a 2000 px screen
      in an 1800 px container with a 0.05 slight fraction anchors
      SlightlyExpanded at 1900, below Hidden at 1800. */
  lemma ShortContainerBreaksOrder()
    ensures var inputs := AnchorInputs(Layout(2000, 2000.0, 1800.0, 2000.0, 2000.0, 1000.0, 100.0, 1000, 100),
                                       SheetSize(1.0, 0.5, 0.05), true, false, false);
      && ExactShares(inputs) && ValidSheetSize(inputs.size) && DecreasingFractions(inputs.size)
      && BuildAnchors(inputs)[Hidden] == 1800.0
      && SlightlyExpanded in BuildAnchors(inputs) && BuildAnchors(inputs)[SlightlyExpanded] == 1900.0
      && !OrderedByExpansion(BuildAnchors(inputs))
  {
    var inputs := AnchorInputs(Layout(2000, 2000.0, 1800.0, 2000.0, 2000.0, 1000.0, 100.0, 1000, 100),
                               SheetSize(1.0, 0.5, 0.05), true, false, false);
    var a := BuildAnchors(inputs);
    assert CalculateAnchor(SlightlyExpanded, inputs) == Some(1900.0);
    assert ExpansionRank(Hidden) <= ExpansionRank(SlightlyExpanded) && a[SlightlyExpanded] > a[Hidden];
  }

  /** Non-modal: when the rounded sizes grow from Slightly to Intermediately
      expanded and fit in the full height, the present anchors follow
      expansion order. */
  lemma NonModalAnchorsOrdered(inputs: AnchorInputs)
    requires !inputs.isModal
    requires inputs.layout.roundedSlight <= inputs.layout.roundedIntermediate
    requires inputs.layout.roundedIntermediate as real <= inputs.layout.sheetFullHeight
    ensures OrderedByExpansion(BuildAnchors(inputs))
  {
    var a := BuildAnchors(inputs);
    forall u, w | u in a && w in a && ExpansionRank(u) <= ExpansionRank(w)
      ensures a[w] <= a[u]
    {
    }
  }

  /** What the anchor-change handler asks of the sheet. */
  datatype AnchorChange =
    | KeepOffset                                     // neither callback fires
    | AnimateTo(target: SheetValue, velocity: real)  // the animateTo callback
    | SnapTo(target: SheetValue)                     // the snapTo callback

  /** `getValue` found no anchor for the chosen target. */
  datatype HandlerError = NoSuchElement(key: SheetValue)

  /** Reference definition of a fallback chain: the first candidate that has
      an anchor, or Hidden when none has. */
  function FirstPresent(candidates: seq<SheetValue>, a: Anchors): (r: SheetValue)
    requires Hidden !in candidates
    ensures r == Hidden <==> forall i :: 0 <= i < |candidates| ==> candidates[i] !in a
    ensures r != Hidden ==> r in a && exists i :: (0 <= i < |candidates| && candidates[i] == r &&
      forall j :: 0 <= j < i ==> candidates[j] !in a)
  {
    if |candidates| == 0 then Hidden
    else if candidates[0] in a then candidates[0]
    else
      var rest := candidates[1..];
      var r := FirstPresent(rest, a);
      assert r == Hidden ==> forall i :: 0 <= i < |candidates| ==> candidates[i] !in a by {
        if r == Hidden {
          forall i | 0 <= i < |candidates| ensures candidates[i] !in a {
            if i > 0 { assert candidates[i] == rest[i - 1]; }
          }
        }
      }
      assert r != Hidden ==> exists i :: (0 <= i < |candidates| && candidates[i] == r &&
        forall j :: 0 <= j < i ==> candidates[j] !in a) by {
        if r != Hidden {
          var i :| 0 <= i < |rest| && rest[i] == r && forall j :: 0 <= j < i ==> rest[j] !in a;
          assert candidates[i + 1] == r;
          forall j | 0 <= j < i + 1 ensures candidates[j] !in a {
            if j > 0 { assert candidates[j] == rest[j - 1]; }
          }
        }
      }
      r
  }

  /** The new target the handler picks: Hidden stays Hidden; any other
      previous target falls back to the first of Intermediately, Slightly and
      Fully expanded that has a new anchor, and to Hidden last. */
  function FallbackTarget(previousTarget: SheetValue, newAnchors: Anchors): (r: SheetValue)
    ensures previousTarget == Hidden ==> r == Hidden
    ensures r != Hidden ==> r in newAnchors
    ensures r == Hidden <==>
      previousTarget == Hidden ||
      (IntermediatelyExpanded !in newAnchors && SlightlyExpanded !in newAnchors && FullyExpanded !in newAnchors)
    ensures r == FullyExpanded ==> IntermediatelyExpanded !in newAnchors && SlightlyExpanded !in newAnchors
  {
    match previousTarget
    case Hidden => Hidden
    case _ =>
      if IntermediatelyExpanded in newAnchors then IntermediatelyExpanded
      else if SlightlyExpanded in newAnchors then SlightlyExpanded
      else if FullyExpanded in newAnchors then FullyExpanded
      else Hidden
  }

  /** The handler's fallback is the reference chain over Intermediately,
      Slightly and Fully expanded. */
  lemma FallbackIsFirstPresent(previousTarget: SheetValue, newAnchors: Anchors)
    ensures FallbackTarget(previousTarget, newAnchors) ==
      if previousTarget == Hidden then Hidden
      else FirstPresent([IntermediatelyExpanded, SlightlyExpanded, FullyExpanded], newAnchors)
  {
    var chain := [IntermediatelyExpanded, SlightlyExpanded, FullyExpanded];
    var r := FirstPresent(chain, newAnchors);
    if IntermediatelyExpanded in newAnchors {
      assert r == IntermediatelyExpanded;
    } else if SlightlyExpanded in newAnchors {
      assert chain[1..] == [SlightlyExpanded, FullyExpanded];
      assert FirstPresent(chain[1..], newAnchors) == SlightlyExpanded;
    } else if FullyExpanded in newAnchors {
      assert chain[1..] == [SlightlyExpanded, FullyExpanded];
      assert chain[1..][1..] == [FullyExpanded];
      assert FirstPresent(chain[1..][1..], newAnchors) == FullyExpanded;
      assert FirstPresent(chain[1..], newAnchors) == FullyExpanded;
    } else {
      assert forall i :: 0 <= i < |chain| ==> chain[i] !in newAnchors;
    }
  }

  /** The anchor-change handler. It picks the fallback target, reads that
      target's new anchor (failing when there is none), and compares it with
      the previous target's old anchor, a missing old anchor counting as
      different. An unchanged offset asks for nothing; a changed one re-aims
      the animation at the last velocity when an animation is running or
      there were no anchors before, and snaps otherwise. */
  function OnAnchorsChanged(
    previousTarget: SheetValue,
    previousAnchors: Anchors,
    newAnchors: Anchors,
    isAnimationRunning: bool,
    lastVelocity: real
  ): (r: Result<AnchorChange, HandlerError>)
    ensures r.Failure? <==> FallbackTarget(previousTarget, newAnchors) !in newAnchors
    ensures r.Success? && !r.value.KeepOffset? ==>
      r.value.target == FallbackTarget(previousTarget, newAnchors) && r.value.target in newAnchors
    ensures r.Success? ==>
      (r.value.KeepOffset? <==>
        previousTarget in previousAnchors &&
        newAnchors[FallbackTarget(previousTarget, newAnchors)] == previousAnchors[previousTarget])
    ensures r.Success? && r.value.AnimateTo? ==>
      (isAnimationRunning || |previousAnchors| == 0) && r.value.velocity == lastVelocity
    ensures r.Success? && r.value.SnapTo? ==> !isAnimationRunning && |previousAnchors| != 0
    ensures r.Success? && !r.value.KeepOffset? && (isAnimationRunning || |previousAnchors| == 0) ==> r.value.AnimateTo?
  {
    var newTarget := FallbackTarget(previousTarget, newAnchors);
    if newTarget !in newAnchors then Failure(NoSuchElement(newTarget))
    else if previousTarget in previousAnchors && newAnchors[newTarget] == previousAnchors[previousTarget] then
      Success(KeepOffset)
    else if isAnimationRunning || |previousAnchors| == 0 then
      Success(AnimateTo(newTarget, lastVelocity))
    else
      Success(SnapTo(newTarget))
  }

  /** On an anchor map built by the modifier the handler never fails, and a
      sheet heading for Hidden stays aimed at Hidden. */
  lemma BuiltAnchorsAlwaysHandled(
    previousTarget: SheetValue, previousAnchors: Anchors, inputs: AnchorInputs,
    isAnimationRunning: bool, lastVelocity: real)
    ensures var r := OnAnchorsChanged(previousTarget, previousAnchors, BuildAnchors(inputs),
                                      isAnimationRunning, lastVelocity);
      && r.Success?
      && (previousTarget == Hidden && !r.value.KeepOffset? ==> r.value.target == Hidden)
  {
    var a := BuildAnchors(inputs);
    assert FallbackTarget(previousTarget, a) in a;
  }

  /** On the first layout (no previous anchors) a reachable target is always
      animated to, since a missing old anchor counts as a changed offset. */
  lemma FirstLayoutAnimates(
    previousTarget: SheetValue, newAnchors: Anchors, isAnimationRunning: bool, lastVelocity: real)
    requires FallbackTarget(previousTarget, newAnchors) in newAnchors
    ensures OnAnchorsChanged(previousTarget, map[], newAnchors, isAnimationRunning, lastVelocity) ==
      Success(AnimateTo(FallbackTarget(previousTarget, newAnchors), lastVelocity))
  {
  }

  /** A resize while at rest snaps: no animation running, previous anchors
      present and the target's offset moved, so the handler snaps to it. */
  lemma RestingResizeSnaps(
    previousTarget: SheetValue, previousAnchors: Anchors, newAnchors: Anchors, lastVelocity: real)
    requires |previousAnchors| != 0
    requires FallbackTarget(previousTarget, newAnchors) in newAnchors
    requires previousTarget !in previousAnchors ||
      newAnchors[FallbackTarget(previousTarget, newAnchors)] != previousAnchors[previousTarget]
    ensures OnAnchorsChanged(previousTarget, previousAnchors, newAnchors, false, lastVelocity) ==
      Success(SnapTo(FallbackTarget(previousTarget, newAnchors)))
  {
  }
}

=== FILE: Wrappers.dfy ===
/** Failure-compatible wrappers used across the model: an optional value and
    a value-or-error result. */
module Wrappers {

  /** A value that may be absent, as a nullable Kotlin value. */
  datatype Option<+T> = None | Some(value: T) {

    /** The wrapped value, or `default` when there is none (Kotlin's `?:`). */
    function GetOr(default: T): (r: T)
      ensures Some? ==> r == value
      ensures None? ==> r == default
    {
      match this
      case Some(v) => v
      case None => default
    }
  }

  /** Either a value or the exception the source would throw instead. */
  datatype Result<+R, +E> = Success(value: R) | Failure(error: E)
}
